=== FILE: README.md ===
# Osari trading — catalogue, quote cart and product stores in Dafny

This project models the core of the Osari trading web site: the product
catalogue page, the quote cart that carries products into the contact form,
the product store hooks, the admin dashboard's counting, validation and
filtering, and the two small Express back ends that serve the products file.
Every operation is a pure Dafny function on immutable data, and properties
the site relies on are proved about it.

Modules:

- `Wrappers`, `Seqs`, `Text`, `Ordering` hold shared vocabulary:
  - optional values and results;
  - filtering, grouping, distinct and first-match lookup on sequences;
  - ASCII case mapping, `split`/`join`, `trim`, whitespace tokens and
    decimal rendering on strings;
  - lexicographic order with insertion sort.
- `Model` holds the product record the pages share.
- `Catalog` is the products page: category slugs, the A–Z category list, the
  search filter, grouping by slug, and the rendered sections.
- `QuoteCart` is the cart in local storage and the contact form that reads it.
- `CategoryNames` covers category display names: `formatCategoryName`, the
  hyphen-to-space naming and the admin dashboard's name normalisation.
- `ProductStore` covers the product hook's list edits, its storage fallback,
  derived categories, and the static product API.
- `Admin` is the admin dashboard: per-category counts, form validation, the
  sorted category insert, the local delete, the product filter, editing.
- `Records`, `JsonFileApi`, `DevServer` cover the JSON records of the two
  Express servers and their handlers.

Storage, JSON parsing and serialisation, URL checking and id generation are
parameters of the functions that need them.

## Model

| member | source | states |
|---|---|---|
| QuoteCart.AddToCart | src/pages/Products.tsx:13-21 | a name is added exactly when it is not yet in the stored cart; it is appended at the end; otherwise storage is untouched; afterwards the name is in the cart |
| QuoteCart.AddKeepsNoDup | src/pages/Products.tsx:13-21 | adding to a duplicate-free cart keeps it duplicate-free |
| QuoteCart.AddTwice | src/pages/Products.tsx:13-21 | a second add of the same name reports false and changes nothing |
| QuoteCart.RequestQuote | src/pages/Products.tsx:158-160 | requesting a quote records the product as the pending contact product and adds it to the cart under the same rule as AddToCart |
| QuoteCart.Summary | src/pages/Contact.tsx:41-45 | the one-item summary is the same text as the general one: the marker, a space and the cart joined by ", " |
| QuoteCart.AppendSummary | src/pages/Contact.tsx:40-49 | an empty cart leaves the message alone; otherwise the summary follows the message, and the empty-message branch gives the same text |
| QuoteCart.StripSummary | src/pages/Contact.tsx:58-63 | clearing the cart cuts the message at the first cart-summary marker, and leaves a message without one unchanged |
| QuoteCart.StripLeavesNoMarker | src/pages/Contact.tsx:62 | after stripping, the message holds no marker |
| QuoteCart.StripIdempotent | src/pages/Contact.tsx:62 | stripping twice is stripping once |
| QuoteCart.StripAfterBlock | src/pages/Contact.tsx:41-49 | stripping a message built as draft + summary block + any text gives back the draft, when the draft has no marker |
| QuoteCart.StripRepeatedBlocks | src/pages/Contact.tsx:41-62 | two appended summary blocks are both removed by one strip |
| QuoteCart.PersistForm | src/pages/Contact.tsx:22-24 | persisting saves exactly the current form and leaves the cart and the pending product alone |
| QuoteCart.FoldInPending | src/pages/Contact.tsx:34-38 | a non-empty pending product is added to the cart if missing and then cleared; with none pending, storage is unchanged |
| QuoteCart.LoadAndAppend | src/pages/Contact.tsx:27-51 | the load effect restores the saved form (or keeps the current one) and appends the summary of the folded-in cart |
| QuoteCart.MountAsWritten | src/pages/Contact.tsx:22-51 | with the effects in source order, the saved form is replaced by an empty form carrying only the cart summary |
| QuoteCart.MountAsWrittenDropsDraft | src/pages/Contact.tsx:22-51 | a saved draft with name, email and message is lost on mount |
| QuoteCart.Mount | src/pages/Contact.tsx:27-51 | loading before persisting keeps the saved draft and appends the summary |
| QuoteCart.MountKeepsDraft | src/pages/Contact.tsx:27-51 | the draft's fields survive mount; the message is the draft followed by the cart summary |
| QuoteCart.RemountAppendsAgain | src/pages/Contact.tsx:41-49 | with the corrected mount, mounting again while the cart is still stored appends a second summary block to the restored message |
| QuoteCart.RequestThenMountOnce | src/pages/Contact.tsx:34-38 | a product requested on the products page appears in the contact cart exactly once |
| QuoteCart.ClearCart | src/pages/Contact.tsx:58-63 | clearing removes the stored cart, strips the summary from the message and saves the result |
| QuoteCart.ClearAfterMount | src/pages/Contact.tsx:58-63 | with the corrected mount, clearing right after it restores the saved draft exactly, provided the draft's message holds no cart-summary marker of its own |
| QuoteCart.Submit | src/pages/Contact.tsx:72-108 | a sent message resets the form and the cart; a failed send changes nothing |
| QuoteCart.BasmatiScenario | src/pages/Contact.tsx:27-63 | a concrete session: request, mount, clear |
| Catalog.Collapse | src/pages/Products.tsx:70 | the replacement is empty only for empty input, and it starts with a hyphen exactly when the input starts with a non-slug character |
| Catalog.CollapseShape | src/pages/Products.tsx:70 | replacing every run of non-slug characters by one hyphen leaves only a–z, 0–9 and hyphens, never two hyphens in a row |
| Catalog.Slugify | src/pages/Products.tsx:70 | every slug is made of a–z, 0–9 and single hyphens |
| Catalog.SlugOfSlug | src/pages/Products.tsx:70 | a slug is its own slug |
| Catalog.SlugIdempotent | src/pages/Products.tsx:70 | slugifying twice is slugifying once |
| Catalog.CollapseJoin | src/pages/Products.tsx:70 | words of slug characters joined by any run of non-slug characters collapse to the same words joined by "-" |
| Catalog.CategoryList | src/pages/Products.tsx:63-71 | category names are exactly the products' categories, without duplicates and sorted; each link's slug is its name's slug |
| Catalog.FilterProducts | src/pages/Products.tsx:81-89 | the search keeps exactly the matching products, in order and with their multiplicity |
| Catalog.MatchesSearch | src/pages/Products.tsx:84-87 | a search term that is empty after lower-casing matches every product |
| Catalog.FilterMembers | src/pages/Products.tsx:81-89 | a product is shown exactly when it is listed and matches the term |
| Catalog.EmptySearchKeepsAll | src/pages/Products.tsx:81-89 | the empty search term keeps every product |
| Catalog.ProductsByCategory | src/pages/Products.tsx:91-99 | each group holds the filtered products with that slug, in order; the keys are exactly the slugs present |
| Catalog.GroupContents | src/pages/Products.tsx:91-99 | a group is exactly the filtered products with its slug |
| Catalog.GroupKeys | src/pages/Products.tsx:91-99 | a slug has a group exactly when some filtered product has it |
| Catalog.ExactlyOneGroup | src/pages/Products.tsx:91-99 | every filtered product lies in its own slug's group and in no other |
| Catalog.GroupsPartition | src/pages/Products.tsx:91-99 | the group sizes add up to the number of filtered products |
| Catalog.EveryMatchRendered | src/pages/Products.tsx:265-267 | every product that matches the search appears in some rendered section |
| Catalog.Sections | src/pages/Products.tsx:265-267 | the sections follow the category list's order (their headings are a subsequence of it); each is a listed category whose group exists and is non-empty, showing exactly that group |
| Catalog.EmptySearchRendersAll | src/pages/Products.tsx:265-267 | with no search term every product is rendered |
| Catalog.RenderedIsGroupSizes | src/pages/Products.tsx:265-267 | the number of rendered cards is the sum of the listed slugs' group sizes |
| Catalog.DistinctSlugsRenderOnce | src/pages/Products.tsx:265-267 | when no two category names share a slug, each matching product is rendered exactly once |
| Catalog.CollidingSlugsRenderTwice | src/pages/Products.tsx:265-267 | two names with one slug render that group twice |
| CategoryNames.FormatCategoryName | src/hooks/useProducts.ts:28-42 | no display name contains a hyphen: the split removes every hyphen and capitalising adds none |
| CategoryNames.SpecialCaseIsGeneral | src/hooks/useProducts.ts:33-35 | the special case for "cooking-essential-oils" gives what the general rule gives, so formatCategoryName equals the general rule on every slug |
| CategoryNames.TwoWordRule | src/hooks/useProducts.ts:37-39 | a two-word slug is shown as "A & B" |
| CategoryNames.GrainsSides | src/hooks/useProducts.ts:37-39 | "grains-sides" is shown as "Grains & Sides" |
| CategoryNames.SpicesSeasonings | src/hooks/useProducts.ts:37-39 | "spices-seasonings" is shown as "Spices & Seasonings" |
| CategoryNames.DisplayOfWords | src/hooks/useProducts.ts:28-42 | the name of a hyphen-joined slug is its capitalised words joined by " & " (two words) or " " |
| CategoryNames.SlugOfDisplayName | src/hooks/useProducts.ts:28-42 | the catalogue's slug of a formatted name gives back the original slug, for slugs of lower-case words |
| CategoryNames.SpaceName | src/api/products.ts:29 | the API's name replaces every hyphen by a space and changes nothing else |
| CategoryNames.SpaceNameInverse | src/api/products.ts:29 | turning spaces back into hyphens recovers a slug without spaces |
| CategoryNames.TitleWord | src/pages/AdminDashboard.tsx:250 | a word keeps its length and its letters up to case; its first character is not a lower-case letter and no later character is upper-case |
| CategoryNames.TitleWordIdempotent | src/pages/AdminDashboard.tsx:250 | title-casing a title-cased word changes nothing |
| CategoryNames.NormaliseCategoryName | src/pages/AdminDashboard.tsx:247-251 | the stored name is empty exactly when the trimmed input is |
| CategoryNames.NormalisedShape | src/pages/AdminDashboard.tsx:247-251 | the normalised name has no outer whitespace, and its words are the input's words title-cased |
| CategoryNames.NormaliseIdempotent | src/pages/AdminDashboard.tsx:247-251 | normalising twice is normalising once |
| ProductStore.AddProduct | src/hooks/useProducts.ts:93-97 | the new product goes at the end and the rest is unchanged |
| ProductStore.UpdateProduct | src/hooks/useProducts.ts:99-105 | every product with the updated id is replaced and every other is kept |
| ProductStore.DeleteProduct | src/hooks/useProducts.ts:107-111 | every product with the id goes, and all others stay in order |
| ProductStore.FetchProductById | src/api/products.ts:51-55 | a product is found exactly when its id is listed, and it is the first with that id |
| ProductStore.AddThenFetch | src/hooks/useProducts.ts:93-97 | after an add, lookup finds the old first match, or the new product if the id was new |
| ProductStore.UpdateThenFetch | src/hooks/useProducts.ts:99-105 | after an update, lookup of that id returns the update; other ids are unaffected |
| ProductStore.DeleteThenFetch | src/hooks/useProducts.ts:107-111 | after a delete the id is not found; other ids are unaffected |
| ProductStore.DeleteUndoesAdd | src/hooks/useProducts.ts:93-111 | deleting a freshly added product with a new id restores the list |
| ProductStore.GetStoredProducts | src/hooks/useProducts.ts:45-57 | without a window: the seed, storage untouched; a non-empty slot: its parse, or the seed when the parse fails, storage untouched; a missing or empty slot: the seed, and the slot is filled with the encoded seed |
| ProductStore.SaveProducts | src/hooks/useProducts.ts:59-63 | with a window the slot is written; without one nothing changes |
| ProductStore.DeriveCategories | src/hooks/useProducts.ts:66-79 | one category per distinct category value, in order of first appearance; the id is the 1-based position in decimal; name and description come from the name rule; the image is the first such product's |
| ProductStore.HookCategories | src/hooks/useProducts.ts:66-79 | the hook's categories are the distinct category values in order, named by formatCategoryName, so no name contains a hyphen |
| ProductStore.ApiCategories | src/api/products.ts:23-34 | the API's categories are the same distinct values, named with spaces in place of hyphens |
| ProductStore.DerivedCategoriesFacts | src/hooks/useProducts.ts:122-134 | derived categories have distinct slugs and distinct ids, in order of first appearance |
| ProductStore.EveryCategoryDerived | src/hooks/useProducts.ts:122-134 | every product's category has a derived category |
| ProductStore.HookAndApiAgree | src/api/products.ts:23-34 | the hook and the API derive the same slugs, ids and images; they differ only in the name rule |
| ProductStore.FetchProductsByCategory | src/api/products.ts:44-48 | exactly the products of the slug, in order |
| ProductStore.FetchByCategoryPartition | src/api/products.ts:44-48 | fetching every derived category covers each product once, and no derived category is empty |
| ProductStore.DisplayNamesRecoverSlug | src/api/products.ts:29 | for a slug of `[a-z0-9]` words, the catalogue page's slug rule recovers the slug from both formatCategoryName's name and the API's name; turning the API name's spaces back into hyphens recovers it too |
| Admin.ProductCounts | src/pages/AdminDashboard.tsx:110-117 | one count per listed category: the number of products with exactly that category |
| Admin.DisplayedCount | src/pages/AdminDashboard.tsx:411 | a category shows its count, or 0 when it is not in the map |
| Admin.CountsAddUp | src/pages/AdminDashboard.tsx:110-117 | when every product's category is listed once, the displayed counts add up to the product total |
| Admin.ValidateProductForm | src/pages/AdminDashboard.tsx:142-156 | the form is valid exactly when the trimmed name and category are non-empty and the image is empty or a valid URL; a blank name, then a blank category, then a bad image URL each give their own message, checked in that order |
| Admin.ProductFormIgnoresPadding | src/pages/AdminDashboard.tsx:142-156 | whitespace before the name does not change the verdict, and an empty image never reaches the URL check |
| Admin.ValidateCategoryForm | src/pages/AdminDashboard.tsx:158-169 | valid exactly when the trimmed input is non-empty and no listed name equals it ignoring case |
| Admin.SubmitCategoryAsWritten | src/pages/AdminDashboard.tsx:243-266 | the database is called exactly when the written check passes; a successful insert sorts the normalised name into the list, and a failed one leaves the list unchanged |
| Admin.SubmitAsWrittenAddsDuplicate | src/pages/AdminDashboard.tsx:158-169 | "spices  mix" passes against "Spices Mix" and the list then holds "Spices Mix" twice |
| Admin.ValidateCategoryName | src/pages/AdminDashboard.tsx:158-169 | the corrected check: the normalised name must be non-empty and not listed, ignoring case |
| Admin.SubmitCategory | src/pages/AdminDashboard.tsx:243-266 | the corrected submit calls the database exactly when the normalised name is non-empty and not listed ignoring case; a successful insert sorts it into the list, and a failed one leaves the list unchanged |
| Admin.SubmitRejectsSpacedDuplicate | src/pages/AdminDashboard.tsx:158-169 | the corrected check refuses "spices  mix" against "Spices Mix" |
| Admin.SubmitKeepsCaseDistinct | src/pages/AdminDashboard.tsx:243-260 | the corrected submit keeps the names distinct ignoring case; the normalised name is empty exactly when the trimmed input is |
| Admin.InsertCategory | src/pages/AdminDashboard.tsx:259 | the new list is sorted and is the old list plus the name |
| Admin.InsertCategoryIsInsert | src/pages/AdminDashboard.tsx:259 | on a sorted list, re-sorting after appending is a single ordered insert |
| Admin.AfterDelete | src/pages/AdminDashboard.tsx:226-241 | a successful delete removes the id and keeps every other product in order, each with its multiplicity; a failed one changes nothing |
| Admin.AfterDeleteExact | src/pages/AdminDashboard.tsx:233 | a product remains exactly when it was listed with another id |
| Admin.AdminFilter | src/pages/AdminDashboard.tsx:286-294 | keeps exactly the products matching both the search and the selected category, in order |
| Admin.SameSearchAsCatalogue | src/pages/AdminDashboard.tsx:288-290 | the admin search test is the catalogue's search test |
| Admin.AdminMatchesSearch | src/pages/AdminDashboard.tsx:288-290 | a query that is empty after lower-casing matches every product |
| Admin.AdminAllIsCatalogueSearch | src/pages/AdminDashboard.tsx:286-294 | with "all" selected, the admin list is the catalogue's filtered list |
| Admin.AdminCategoryIsCatalogueSearch | src/pages/AdminDashboard.tsx:286-294 | with a category selected, the admin list is the catalogue's filtered list restricted to that category |
| Admin.StartEdit | src/pages/AdminDashboard.tsx:271-279 | the form copies the product; a missing description becomes "" and a missing stock flag becomes true |
| Admin.EditRoundTrip | src/pages/AdminDashboard.tsx:271-279 | the form gives back the product with those defaults filled in, and exactly the product when both were set |
| Records.Merge | backend/index.js:75 | the merged record has the fields of both; the body's values win |
| Records.MergeLaws | backend/index.js:75 | merging is associative, idempotent in the body, and the empty body is neutral |
| Records.MergeKeepsId | backend/index.js:75 | the merged record keeps its id exactly when the body brings none or the same one |
| Records.IndexOfId | backend/index.js:69 | the index is present exactly when some record has the id, and it is the first such |
| Records.WithoutId | backend/index.js:85 | exactly the records without the id, in order and with their multiplicity |
| Records.WithoutUniqueId | backend/index.js:85 | when one record has the id, filtering removes just that position |
| JsonFileApi.ReadProducts | backend/index.js:29-37 | a missing file reads as []; a read or parse error fails; otherwise the parse |
| JsonFileApi.PostOn | backend/index.js:51-62 | 400 exactly when id, name or category is missing or falsy; otherwise 201 and the body is appended |
| JsonFileApi.PutOn | backend/index.js:65-79 | 404 exactly when no record has the id; otherwise only the first match is merged with the body |
| JsonFileApi.DeleteOn | backend/index.js:82-89 | always 200; every record with the id is removed and the rest are kept in order |
| JsonFileApi.GetOneOn | backend/index.js:92-98 | the first record with the id, or 404 |
| JsonFileApi.Handle | backend/index.js:40-98 | no reply exactly when the read fails, or when the route writes and the awaited write fails; a POST missing fields gets its 400 before the read; otherwise the route's reply on the list as read |
| JsonFileApi.ReadsIgnoreWrite | backend/index.js:45-48 | the two GET routes answer the same whether or not writes would fail |
| JsonFileApi.GetAllOn | backend/index.js:45-48 | GET answers 200 with the list as read and writes nothing |
| JsonFileApi.MissingFileIsEmpty | backend/index.js:29-37 | on a missing file GET returns [], GET by id 404s, and a valid POST writes the one record when the write succeeds and gets no reply when it fails |
| JsonFileApi.PostDuplicateId | backend/index.js:51-62 | POST accepts a taken id; GET by id still returns the older record |
| JsonFileApi.PutThenGet | backend/index.js:65-98 | after PUT, GET by the id returns the merged record, when the body keeps the id |
| JsonFileApi.DeleteThenGet | backend/index.js:82-98 | after DELETE, GET by the id 404s; deleting an absent id writes the list back unchanged |
| DevServer.ReadProducts | server.js:16-24 | any read or parse failure reads as [] |
| DevServer.GetAllOn | server.js:36-39 | GET answers 200 with the list as read and writes nothing |
| DevServer.GetAllAgrees | server.js:36-39 | both servers answer GET with the same list and neither writes |
| DevServer.PostOn | server.js:42-48 | the new record is appended and returned with 201; its fields are exactly the body's plus "id", it keeps every body value, and the generated id applies only when the body has none |
| DevServer.PutOn | server.js:51-59 | 404 exactly when no record has the id; otherwise the first match is merged and returned |
| DevServer.DeleteOn | server.js:62-70 | 404 exactly when no record has the id; otherwise the first match alone is spliced out, the rest keeping their order, and returned |
| DevServer.DeleteFirstOnly | server.js:62-70 | with two records of one id, a later one survives the delete |
| DevServer.PutAgrees | server.js:51-59 | the development server's PUT writes and answers with the same status as the file API's |
| DevServer.DeleteAgreesOnUniqueId | server.js:62-70 | on a unique id both servers' DELETE write the same list |
| DevServer.DeleteAbsentDiffers | server.js:62-70 | on an absent id this server answers 404 where the file API answers 200 |
| DevServer.DeleteDuplicatesDiffer | server.js:62-70 | with duplicate ids this server removes one record where the file API removes all |
| DevServer.PostThenPut | server.js:42-59 | a record posted without an id can be updated under its generated id |

## Left out

- Rendering, animation, scrolling, active-category tracking and toasts are left out. They are presentation and carry no data logic.
- The hosted database (Supabase), the e-mail service, Express routing, CORS and `listen` are left out. The model keeps only what each handler computes. Whether the category insert succeeds is a parameter of the admin submit. The database refetch after a successful insert is left out: it replaces local state with whatever the server holds.
- Local storage, `JSON.parse`/`JSON.stringify`, `new URL(...)` and `crypto.randomUUID()` are parameters. The model does not fix their behaviour. A cart value in storage that fails to parse makes the page throw; that is not modelled, and the stored cart is a list of names.
- `localeCompare` is modelled as plain lexicographic order on characters. Locale collation is out of reach.
- `toLowerCase`/`toUpperCase` are modelled as ASCII-only case mapping, because the catalogue's names and slugs are ASCII; `\s` and `trim` use JavaScript's full WhiteSpace and LineTerminator set.
- The home page's shuffle of featured products is random. `scripts/fetchProducts.js` is a one-off data download. `useFeaturedProducts`, `fetchProducts` and `fetchCategories` return constants. None of these is modelled.
- Two tabs writing the same storage key at once are not modelled.
- JsonFileApi.ReadProducts: a read error other than a missing file becomes "no reply". The rejected promise, and Express's handling of it, are not modelled. A failed write in JsonFileApi.Handle is also "no reply", for the same reason.
- Catalog.ProductsByCategory: the grouping is a Dafny map, while the source uses a plain object. A category whose slug names a property inherited from `Object.prototype` (for example "constructor") finds a truthy non-array there, so `push` throws and the page fails to render. Catalog.EveryMatchRendered therefore holds only for slugs that are not such property names. The model treats every slug as an ordinary key.
- Admin.ProductCounts: the counts are a Dafny map, while the source uses a plain object. A category named after an inherited property (for example "__proto__") is not stored or read as an ordinary key there. The model treats every name as an ordinary key.
- DevServer: a failing write is logged and swallowed by the source. The model treats every write as successful.
- Records.Value: JSON numbers are integers. Floating point is not modelled.
- Model.Product has only the fields the modelled code reads: id, name, category, image, description and the stock flag. Other optional fields are ignored.

## Findings

| source | as written | input that shows it | evidently intended | confidence | as-written member | corrected member |
|---|---|---|---|---|---|---|
| src/pages/Contact.tsx:22-51 | the effect that saves the form is declared before the effect that restores it. On mount, React runs it first, so the empty initial form overwrites the saved draft before it is read | a saved draft `{name: "Ann", email: "ann@example.com", message: "hello"}`, then opening the contact page | the saved draft is restored on mount, with the cart summary appended | not executed | QuoteCart.MountAsWritten, QuoteCart.MountAsWrittenDropsDraft | QuoteCart.Mount, QuoteCart.MountKeepsDraft |
| src/pages/AdminDashboard.tsx:158-169, 247-251 | the duplicate check compares the trimmed input, but the stored name is the whitespace-normalised, title-cased input | categories `["Spices Mix"]`, input `"spices  mix"` (two spaces) | the duplicate check compares the name that is actually inserted, so no two names differ only in case | not executed | Admin.SubmitCategoryAsWritten, Admin.SubmitAsWrittenAddsDuplicate | Admin.SubmitCategory, Admin.SubmitKeepsCaseDistinct |

=== FILE: admin.dfy ===
/** The list logic of the admin dashboard (src/pages/AdminDashboard.tsx): the
    per-category product counts, the two form validations, the product search
    and category filter, the local list updates after a delete or a category
    insert, and the edit-form defaults. The hosted database calls are left
    out; the local updates take whether the call succeeded as a parameter. */
module Admin {
  import opened Wrappers
  import opened Seqs
  import opened Text
  import opened Model
  import Ordering
  import Catalog
  import ProductStore
  import CategoryNames

  // ---------------------------------------------------------------- counts

  function Category(p: Product): string { p.category }

  /** `productCounts`: for each listed category, the number of products whose
      category equals it exactly. */
  function ProductCounts(ps: seq<Product>, cats: seq<string>): (r: map<string, nat>)
    ensures r.Keys == set c | c in cats
    ensures forall c :: c in r ==> r[c] == KeyCount(ps, Category, c)
  {
    if |cats| == 0 then map[]
    else
      var n := |cats| - 1;
      assert cats == cats[..n] + [cats[n]];
      ProductCounts(ps, cats[..n])[cats[n] := KeyCount(ps, Category, cats[n])]
  }

  /** `productCounts[category] || 0`. */
  function DisplayCount(counts: map<string, nat>, c: string): nat
  {
    if c in counts then counts[c] else 0
  }

  /** The count shown on a category card is the number of products of that
      category; a category that is not listed shows 0. */
  lemma DisplayedCount(ps: seq<Product>, cats: seq<string>, c: string)
    ensures DisplayCount(ProductCounts(ps, cats), c) == if c in cats then KeyCount(ps, Category, c) else 0
  {
  }

  /** When every product's category is listed once, the displayed counts add up
      to the number of products. */
  lemma CountsAddUp(ps: seq<Product>, cats: seq<string>)
    requires NoDup(cats)
    requires forall i :: 0 <= i < |ps| ==> ps[i].category in cats
    ensures SumDisplayed(ProductCounts(ps, cats), cats) == |ps|
  {
    var counts := ProductCounts(ps, cats);
    SumDisplayedIsKeyCounts(ps, cats, cats);
    PartitionSize(cats, ps, Category);
  }

  function SumDisplayed(counts: map<string, nat>, cats: seq<string>): nat
  {
    if |cats| == 0 then 0 else DisplayCount(counts, cats[0]) + SumDisplayed(counts, cats[1..])
  }

  lemma {:induction false} SumDisplayedIsKeyCounts(ps: seq<Product>, cats: seq<string>, shown: seq<string>)
    requires forall c :: c in shown ==> c in cats
    ensures SumDisplayed(ProductCounts(ps, cats), shown) == SumKeyCounts(shown, ps, Category)
    decreases |shown|
  {
    if |shown| > 0 {
      SumDisplayedIsKeyCounts(ps, cats, shown[1..]);
    }
  }

  // ---------------------------------------------------------------- validation

  /** A validation outcome; `Invalid` carries the alert text. */
  datatype Validation = Valid | Invalid(message: string)

  /** The product form as the dashboard holds it. */
  datatype ProductForm = ProductForm(id: string, name: string, category: string,
                                     description: string, image: string, inStock: bool)

  /** `validateProductForm`. `isValidUrl` stands for the `new URL(...)` check. */
  function ValidateProductForm(f: ProductForm, isValidUrl: string -> bool): (r: Validation)
    ensures r.Valid? <==> Trim(f.name) != "" && Trim(f.category) != "" && (f.image == "" || isValidUrl(f.image))
    ensures Trim(f.name) == "" ==> r == Invalid("Product name is required.")
    ensures Trim(f.name) != "" && Trim(f.category) == "" ==> r == Invalid("Category is required.")
    ensures Trim(f.name) != "" && Trim(f.category) != "" && f.image != "" && !isValidUrl(f.image) ==>
      r == Invalid("Please enter a valid image URL.")
    ensures r == Invalid("Please enter a valid image URL.") ==> f.image != "" && !isValidUrl(f.image)
  {
    if Trim(f.name) == "" then Invalid("Product name is required.")
    else if Trim(f.category) == "" then Invalid("Category is required.")
    else if f.image != "" && !isValidUrl(f.image) then Invalid("Please enter a valid image URL.")
    else Valid
  }

  /** Surrounding whitespace never changes the verdict on the name or the
      category, and an empty image is never checked. */
  lemma ProductFormIgnoresPadding(f: ProductForm, isValidUrl: string -> bool, pad: string)
    requires forall i :: 0 <= i < |pad| ==> IsSpace(pad[i])
    ensures ValidateProductForm(f.(name := pad + f.name), isValidUrl) == ValidateProductForm(f, isValidUrl)
    ensures f.image == "" ==> ValidateProductForm(f, isValidUrl) == ValidateProductForm(f, s => false)
  {
    TrimPadding(pad, f.name);
  }

  lemma {:induction false} TrimPadding(pad: string, s: string)
    requires forall i :: 0 <= i < |pad| ==> IsSpace(pad[i])
    ensures TrimStart(pad + s) == TrimStart(s)
    ensures Trim(pad + s) == Trim(s)
    decreases |pad|
  {
    if |pad| > 0 {
      assert (pad + s)[1..] == pad[1..] + s;
      TrimPadding(pad[1..], s);
    } else {
      assert pad + s == s;
    }
  }

  /** Some listed category equals `name` up to ASCII case. */
  predicate Listed(cats: seq<string>, name: string) {
    exists i :: 0 <= i < |cats| && Lower(cats[i]) == Lower(name)
  }

  /** `validateCategoryForm` as written: the duplicate check compares the
      trimmed input with the listed names, ignoring case. */
  function ValidateCategoryForm(cats: seq<string>, input: string): (r: Validation)
    ensures r.Valid? <==> Trim(input) != "" && !Listed(cats, Trim(input))
    ensures r.Invalid? ==> r.message in {"Category name is required.", "Category already exists."}
  {
    var name := Trim(input);
    if name == "" then Invalid("Category name is required.")
    else if Listed(cats, name) then Invalid("Category already exists.")
    else Valid
  }

  /** `handleCategorySubmit` as written. `None` means the form was rejected
      and the database was not called; otherwise the local list after the
      call, which `inserted` says succeeded: the normalised name sorted in, or
      the list unchanged after the failure alert. */
  function SubmitCategoryAsWritten(cats: seq<string>, input: string, inserted: bool): (r: Option<seq<string>>)
    ensures r.Some? <==> ValidateCategoryForm(cats, input).Valid?
    ensures r.Some? && inserted ==> Ordering.Sorted(r.value) && multiset(r.value) == multiset(cats) + multiset{CategoryNames.NormaliseCategoryName(input)}
    ensures r.Some? && !inserted ==> r.value == cats
  {
    if !ValidateCategoryForm(cats, input).Valid? then None
    else if inserted then Some(InsertCategory(cats, CategoryNames.NormaliseCategoryName(input)))
    else Some(cats)
  }

  /** The check and the insert disagree: "spices  mix" (two spaces) passes the
      check against an existing "Spices Mix", and then "Spices Mix" is
      inserted a second time. */
  lemma SubmitAsWrittenAddsDuplicate(input: string)
    requires input == "spices  mix"
    ensures ValidateCategoryForm(["Spices Mix"], input).Valid?
    ensures CategoryNames.NormaliseCategoryName(input) == "Spices Mix"
    ensures var r := SubmitCategoryAsWritten(["Spices Mix"], input, true);
      r.Some? && multiset(r.value)["Spices Mix"] == 2
  {
    SpicesMixTrim(input);
    assert |Lower(["Spices Mix"][0])| != |Lower(input)|;
    SpicesMixNormalised(input);
  }

  lemma SpicesMixTrim(input: string)
    requires input == "spices  mix"
    ensures Trim(input) == input
  {
    assert !IsSpace(input[0]) && !IsSpace(input[|input| - 1]);
    TrimNoOp(input);
  }

  lemma SpicesMixNormalised(input: string)
    requires input == "spices  mix"
    ensures CategoryNames.NormaliseCategoryName(input) == "Spices Mix"
  {
    SpicesMixTrim(input);
    SpicesMixTokens(input);
    SpicesMixWords();
    assert CategoryNames.TitleAll(["spices", "mix"]) == ["Spices", "Mix"];
    JoinTwo("Spices", "Mix", " ");
  }

  lemma SpicesMixWords()
    ensures CategoryNames.TitleWord("spices") == "Spices"
    ensures CategoryNames.TitleWord("mix") == "Mix"
  {
    TitleLiteral("spices", "Spices");
    TitleLiteral("mix", "Mix");
  }

  /** Title-casing one literal word whose tail has no capitals. */
  lemma TitleLiteral(w: string, t: string)
    requires |w| > 0 && |t| == |w| && t[0] == UpperChar(w[0]) && t[1..] == w[1..]
    requires forall i :: 1 <= i < |w| ==> !IsAsciiUpper(w[i])
    ensures CategoryNames.TitleWord(w) == t
  {
    assert Lower(w[1..]) == w[1..];
  }

  lemma SpicesMixTokens(input: string)
    requires input == "spices  mix"
    ensures Tokens(input) == ["spices", "mix"]
  {
    assert input == "spices" + ("  " + "mix");
    TokensOfTwo("spices", "  ", "mix");
  }

  /** The corrected check validates the name that will be inserted. */
  function ValidateCategoryName(cats: seq<string>, input: string): (r: Validation)
    ensures r.Valid? <==> CategoryNames.NormaliseCategoryName(input) != "" && !Listed(cats, CategoryNames.NormaliseCategoryName(input))
  {
    var name := CategoryNames.NormaliseCategoryName(input);
    if name == "" then Invalid("Category name is required.")
    else if Listed(cats, name) then Invalid("Category already exists.")
    else Valid
  }

  /** `handleCategorySubmit` with the corrected check: a name is sent to the
      database exactly when the name that would be stored is new. */
  function SubmitCategory(cats: seq<string>, input: string, inserted: bool): (r: Option<seq<string>>)
    ensures r.Some? <==> ValidateCategoryName(cats, input).Valid?
    ensures r.Some? && inserted ==> Ordering.Sorted(r.value) && multiset(r.value) == multiset(cats) + multiset{CategoryNames.NormaliseCategoryName(input)}
    ensures r.Some? && !inserted ==> r.value == cats
  {
    if !ValidateCategoryName(cats, input).Valid? then None
    else if inserted then Some(InsertCategory(cats, CategoryNames.NormaliseCategoryName(input)))
    else Some(cats)
  }

  /** The corrected check refuses the input that slips past the written one. */
  lemma SubmitRejectsSpacedDuplicate(input: string, inserted: bool)
    requires input == "spices  mix"
    ensures SubmitCategory(["Spices Mix"], input, inserted).None?
  {
    SpicesMixNormalised(input);
    assert Lower(["Spices Mix"][0]) == Lower(CategoryNames.NormaliseCategoryName(input));
  }

  /** No two names that differ only in ASCII case. */
  predicate CaseDistinct(cats: seq<string>) {
    forall i, j :: 0 <= i < j < |cats| ==> Lower(cats[i]) != Lower(cats[j])
  }

  /** The corrected submit keeps the list free of case-insensitive duplicates,
      and it rejects a blank name exactly when the written check does. */
  lemma SubmitKeepsCaseDistinct(cats: seq<string>, input: string, inserted: bool)
    requires CaseDistinct(cats)
    ensures SubmitCategory(cats, input, inserted).Some? ==> CaseDistinct(SubmitCategory(cats, input, inserted).value)
    ensures (CategoryNames.NormaliseCategoryName(input) == "") <==> (Trim(input) == "")
  {
    CategoryNames.NormalisedShape(input);
    var name := CategoryNames.NormaliseCategoryName(input);
    if SubmitCategory(cats, input, inserted).Some? && inserted {
      var r := SubmitCategory(cats, input, inserted).value;
      var s := cats + [name];
      assert CaseDistinct(s) by {
        forall i, j | 0 <= i < j < |s| ensures Lower(s[i]) != Lower(s[j]) {
          if j == |cats| {
            assert !Listed(cats, name);
            assert s[i] == cats[i];
          }
        }
      }
      CaseDistinctPermutation(s, r);
    }
  }

  /** Case-distinctness depends only on the elements, not their order. */
  lemma CaseDistinctPermutation(a: seq<string>, b: seq<string>)
    requires CaseDistinct(a) && multiset(a) == multiset(b)
    ensures CaseDistinct(b)
  {
    forall i, j | 0 <= i < j < |b| ensures Lower(b[i]) != Lower(b[j]) {
      if Lower(b[i]) == Lower(b[j]) {
        assert b[i] in multiset(a) && b[j] in multiset(a);
        var i', j' :| 0 <= i' < |a| && 0 <= j' < |a| && a[i'] == b[i] && a[j'] == b[j];
        if i' == j' {
          var m := multiset(b);
          assert b == b[..j] + [b[j]] + b[j + 1..];
          assert b[..j] == b[..i] + [b[i]] + b[i + 1..j];
          assert m[b[i]] >= 2;
          NoDupOfCaseDistinct(a);
          NoDupMultiset(a);
          assert false;
        }
      }
    }
  }

  lemma NoDupOfCaseDistinct(a: seq<string>)
    requires CaseDistinct(a)
    ensures NoDup(a)
  {
  }

  // ---------------------------------------------------------------- local list updates

  /** The local category list after an insert: `[...prev, name]` sorted. */
  function InsertCategory(prev: seq<string>, name: string): (r: seq<string>)
    ensures Ordering.Sorted(r) && multiset(r) == multiset(prev) + multiset{name}
  {
    Ordering.Sort(prev + [name])
  }

  /** Inserting into a sorted list is the same as placing the name in order. */
  lemma InsertCategoryIsInsert(prev: seq<string>, name: string)
    requires Ordering.Sorted(prev)
    ensures InsertCategory(prev, name) == Ordering.Insert(name, prev)
  {
    Ordering.SortedUnique(InsertCategory(prev, name), Ordering.Insert(name, prev));
  }

  /** The local product list after a delete: the products without that id when
      the database call succeeded, the list unchanged when it failed. */
  function AfterDelete(ps: seq<Product>, id: string, succeeded: bool): (r: seq<Product>)
    ensures succeeded ==> id !in ProductStore.Ids(r) && IsSubseq(r, ps)
    ensures succeeded ==> forall q :: multiset(r)[q] == if q.id != id then multiset(ps)[q] else 0
    ensures !succeeded ==> r == ps
  {
    if succeeded then ProductStore.DeleteProduct(ps, id) else ps
  }

  /** A successful delete removes exactly the products with that id. */
  lemma AfterDeleteExact(ps: seq<Product>, id: string, p: Product)
    ensures p in AfterDelete(ps, id, true) <==> p in ps && p.id != id
  {
    FilterMembership(ps, (q: Product) => q.id != id, p);
  }

  // ---------------------------------------------------------------- search and filter

  /** The dashboard's search test, with a missing description read as "". */
  predicate AdminMatchesSearch(p: Product, query: string)
    ensures Lower(query) == "" ==> AdminMatchesSearch(p, query)
  {
    ContainsEmpty(Lower(p.name));
    || Contains(Lower(p.name), Lower(query))
    || Contains(Lower(p.description.GetOr("")), Lower(query))
  }

  /** The category filter; the literal "all" switches it off. */
  predicate MatchesCategory(p: Product, selected: string) {
    selected == "all" || p.category == selected
  }

  /** `filteredProducts` of the dashboard. */
  function AdminFilter(ps: seq<Product>, query: string, selected: string): (r: seq<Product>)
    ensures IsSubseq(r, ps)
    ensures forall p :: multiset(r)[p] == if AdminMatchesSearch(p, query) && MatchesCategory(p, selected) then multiset(ps)[p] else 0
  {
    Filter(ps, p => AdminMatchesSearch(p, query) && MatchesCategory(p, selected))
  }

  /** Reading a missing description as "" matches exactly the same products as
      the catalogue page's rule that a missing description never matches. */
  lemma SameSearchAsCatalogue(p: Product, query: string)
    ensures AdminMatchesSearch(p, query) <==> Catalog.MatchesSearch(p, query)
  {
    if p.description.None? && Contains("", Lower(query)) {
      assert |Lower(query)| == 0;
      ContainsEmpty(Lower(p.name));
    }
  }

  /** With "all" selected the dashboard shows the catalogue's search result. */
  lemma AdminAllIsCatalogueSearch(ps: seq<Product>, query: string)
    ensures AdminFilter(ps, query, "all") == Catalog.FilterProducts(ps, query)
  {
    var admin := p => AdminMatchesSearch(p, query) && MatchesCategory(p, "all");
    var shop := p => Catalog.MatchesSearch(p, query);
    forall p ensures admin(p) == shop(p) {
      SameSearchAsCatalogue(p, query);
    }
    FilterExt(ps, admin, shop);
  }

  /** With a category selected the dashboard shows the catalogue's search
      result restricted to that exact category. */
  lemma AdminCategoryIsCatalogueSearch(ps: seq<Product>, query: string, selected: string)
    requires selected != "all"
    ensures AdminFilter(ps, query, selected) == KeyFilter(Catalog.FilterProducts(ps, query), Category, selected)
  {
    var shop := p => Catalog.MatchesSearch(p, query);
    var key: Product -> string := Category;
    var inCat := x => key(x) == selected;
    var admin := p => AdminMatchesSearch(p, query) && MatchesCategory(p, selected);
    var both := x => shop(x) && inCat(x);
    forall p ensures admin(p) == both(p) {
      AdminTestIsBoth(p, query, selected);
    }
    assert AdminFilter(ps, query, selected) == Filter(ps, both) by {
      FilterExt(ps, admin, both);
    }
    FilterFilter(ps, shop, inCat, both);
    KeyFilterIsFilter(Filter(ps, shop), key, selected, inCat);
  }

  lemma AdminTestIsBoth(p: Product, query: string, selected: string)
    requires selected != "all"
    ensures (AdminMatchesSearch(p, query) && MatchesCategory(p, selected)) == (Catalog.MatchesSearch(p, query) && Category(p) == selected)
  {
    SameSearchAsCatalogue(p, query);
  }

  // ---------------------------------------------------------------- editing

  /** `startEdit`: the form filled from a product, a missing description read
      as "" and a missing stock flag as in stock. */
  function StartEdit(p: Product): (r: ProductForm)
    ensures r.id == p.id && r.name == p.name && r.category == p.category && r.image == p.image
    ensures p.description.Some? ==> r.description == p.description.value
    ensures p.description.None? ==> r.description == ""
    ensures r.inStock == (p.inStock != Some(false))
  {
    ProductForm(p.id, p.name, p.category, p.description.GetOr(""), p.image, p.inStock.GetOr(true))
  }

  /** The record an update writes back from the form (with the form's id). */
  function FormRecord(f: ProductForm): Product
  {
    Product(f.id, f.name, f.category, f.image, Some(f.description), Some(f.inStock))
  }

  /** Editing and saving without changes writes the product back unchanged,
      except that missing fields come back filled with their defaults. */
  lemma EditRoundTrip(p: Product)
    ensures FormRecord(StartEdit(p)) == p.(description := Some(p.description.GetOr("")), inStock := Some(p.inStock.GetOr(true)))
    ensures p.description.Some? && p.inStock.Some? ==> FormRecord(StartEdit(p)) == p
  {
  }
}

=== FILE: catalog.dfy ===
/** The product catalogue page (src/pages/Products.tsx): category slugs, the
    sorted category list, the search filter, the grouping of the filtered
    products by category slug, and the sections rendered in category order. */
module Catalog {
  import opened Wrappers
  import opened Seqs
  import opened Text
  import Ordering
  import opened Model

  // ---------------------------------------------------------------- slugs

  /** The characters the regular expression `[^a-z0-9]` does not match. */
  predicate IsSlugChar(c: char) { 'a' <= c <= 'z' || '0' <= c <= '9' }

  /** Only `[a-z0-9-]`, and never two `-` in a row. */
  predicate IsSlug(s: string) {
    && (forall i :: 0 <= i < |s| ==> IsSlugChar(s[i]) || s[i] == '-')
    && (forall i, j :: 0 <= i < |s| && 0 <= j < |s| && j == i + 1 ==> s[i] != '-' || s[j] != '-')
  }

  /** Drops the leading characters outside `[a-z0-9]`. */
  function DropRun(s: string): (r: string)
    ensures |r| <= |s| && r == s[|s| - |r|..]
    ensures |r| > 0 ==> IsSlugChar(r[0])
  {
    if |s| > 0 && !IsSlugChar(s[0]) then DropRun(s[1..]) else s
  }

  /** `s.replace(/[^a-z0-9]+/g, "-")`: each maximal run of characters outside
      `[a-z0-9]` becomes a single `-`. */
  function Collapse(s: string): (r: string)
    ensures |s| == 0 <==> |r| == 0
    ensures |s| > 0 ==> (r[0] == '-' <==> !IsSlugChar(s[0]))
    decreases |s|
  {
    if |s| == 0 then ""
    else if IsSlugChar(s[0]) then [s[0]] + Collapse(s[1..])
    else
      var rest := Collapse(DropRun(s[1..]));
      assert |rest| > 0 ==> rest[0] != '-';
      "-" + rest
  }

  /** The slug of a category name, computed the same way for the category list
      and for the grouping key. */
  function Slugify(name: string): (r: string)
    ensures IsSlug(r)
  {
    CollapseShape(Lower(name));
    Collapse(Lower(name))
  }

  /** The replacement leaves only slug characters and single hyphens. */
  lemma {:induction false} CollapseShape(s: string)
    ensures IsSlug(Collapse(s))
    decreases |s|
  {
    if |s| > 0 {
      if IsSlugChar(s[0]) {
        CollapseShape(s[1..]);
        ConsSlug(s[0], Collapse(s[1..]));
      } else {
        var d := DropRun(s[1..]);
        CollapseShape(d);
        ConsSlug('-', Collapse(d));
      }
    }
  }

  /** Putting a slug character, or a `-` not followed by another, in front of a
      slug gives a slug. */
  lemma ConsSlug(c: char, x: string)
    requires IsSlugChar(c) || c == '-'
    requires IsSlug(x) && (c == '-' && |x| > 0 ==> x[0] != '-')
    ensures IsSlug([c] + x)
  {
    var y := [c] + x;
    assert forall i :: 0 < i < |y| ==> y[i] == x[i - 1];
  }

  /** A string already of slug shape is its own slug, so slugging is idempotent. */
  lemma {:induction false} SlugOfSlug(s: string)
    requires IsSlug(s)
    ensures Slugify(s) == s
  {
    assert Lower(s) == s;
    CollapseSlug(s);
  }

  lemma {:induction false} CollapseSlug(s: string)
    requires IsSlug(s)
    ensures Collapse(s) == s
    decreases |s|
  {
    if |s| > 0 {
      SlugTail(s);
      CollapseSlug(s[1..]);
      CollapseHead(s);
      assert s == [s[0]] + s[1..];
    }
  }

  /** The tail of a slug is a slug, and a `-` is followed by a slug character. */
  lemma SlugTail(s: string)
    requires IsSlug(s) && |s| > 0
    ensures IsSlug(s[1..])
    ensures IsSlugChar(s[0]) || s[0] == '-'
    ensures s[0] == '-' && |s| > 1 ==> IsSlugChar(s[1])
  {
    var t := s[1..];
    assert forall i :: 0 <= i < |t| ==> t[i] == s[i + 1];
  }

  /** One step of the slug rule on a string whose leading `-` is not doubled. */
  lemma CollapseHead(s: string)
    requires |s| > 0 && (IsSlugChar(s[0]) || s[0] == '-')
    requires s[0] == '-' && |s| > 1 ==> IsSlugChar(s[1])
    ensures Collapse(s) == [s[0]] + Collapse(s[1..])
  {
    if !IsSlugChar(s[0]) {
      assert DropRun(s[1..]) == s[1..];
    }
  }

  lemma SlugIdempotent(name: string)
    ensures Slugify(Slugify(name)) == Slugify(name)
  {
    SlugOfSlug(Slugify(name));
  }

  /** A word of `[a-z0-9]` characters passes through the slug rule unchanged. */
  lemma {:induction false} CollapseWord(w: string, rest: string)
    requires forall i :: 0 <= i < |w| ==> IsSlugChar(w[i])
    ensures Collapse(w + rest) == w + Collapse(rest)
    decreases |w|
  {
    if |w| > 0 {
      var c, v := w[0], w[1..];
      assert w + rest == [c] + (v + rest);
      CollapseCons(c, v + rest);
      CollapseWord(v, rest);
      assert [c] + (v + Collapse(rest)) == w + Collapse(rest);
    } else {
      assert w + rest == rest;
    }
  }

  lemma CollapseCons(c: char, x: string)
    requires IsSlugChar(c)
    ensures Collapse([c] + x) == [c] + Collapse(x)
  {
    assert ([c] + x)[1..] == x;
  }

  /** A separator run in front of a word becomes one `-`. */
  lemma CollapseSeparator(sep: string, rest: string)
    requires |sep| > 0 && forall i :: 0 <= i < |sep| ==> !IsSlugChar(sep[i])
    requires |rest| > 0 ==> IsSlugChar(rest[0])
    ensures Collapse(sep + rest) == "-" + Collapse(rest)
  {
    SeparatorHead(sep, rest);
    CollapseRunHead(sep + rest);
    DropRunSeparator(sep[1..], rest);
  }

  lemma SeparatorHead(sep: string, rest: string)
    requires |sep| > 0 && !IsSlugChar(sep[0])
    ensures !IsSlugChar((sep + rest)[0]) && (sep + rest)[1..] == sep[1..] + rest
  {
    assert (sep + rest)[0] == sep[0];
  }

  lemma CollapseRunHead(s: string)
    requires |s| > 0 && !IsSlugChar(s[0])
    ensures Collapse(s) == "-" + Collapse(DropRun(s[1..]))
  {
  }

  lemma {:induction false} DropRunSeparator(sep: string, rest: string)
    requires forall i :: 0 <= i < |sep| ==> !IsSlugChar(sep[i])
    requires |rest| > 0 ==> IsSlugChar(rest[0])
    ensures DropRun(sep + rest) == rest
    decreases |sep|
  {
    if |sep| > 0 {
      assert (sep + rest)[1..] == sep[1..] + rest;
      DropRunSeparator(sep[1..], rest);
    } else {
      assert sep + rest == rest;
    }
  }

  /** Words of `[a-z0-9]` joined by a separator made of other characters slug
      to the same words joined by `-`. */
  lemma {:induction false} CollapseJoin(ws: seq<string>, sep: string)
    requires forall k :: 0 <= k < |ws| ==> IsSlugWord(ws[k])
    requires IsSeparator(sep)
    ensures Collapse(Join(ws, sep)) == Join(ws, "-")
    decreases |ws|
  {
    if |ws| == 1 {
      CollapseWord(ws[0], "");
      assert ws[0] + "" == ws[0];
    } else if |ws| > 1 {
      var rest := ws[1..];
      assert forall k :: 0 <= k < |rest| ==> IsSlugWord(rest[k]) by {
        forall k | 0 <= k < |rest| ensures IsSlugWord(rest[k]) { assert rest[k] == ws[k + 1]; }
      }
      CollapseJoin(rest, sep);
      JoinHead(rest, sep);
      CollapseJoinStep(ws[0], sep, Join(rest, sep), Join(rest, "-"));
    }
  }

  /** Non-empty and made only of `[a-z0-9]`. */
  predicate IsSlugWord(w: string) {
    |w| > 0 && forall i :: 0 <= i < |w| ==> IsSlugChar(w[i])
  }

  /** Non-empty and made only of characters outside `[a-z0-9]`. */
  predicate IsSeparator(sep: string) {
    |sep| > 0 && forall i :: 0 <= i < |sep| ==> !IsSlugChar(sep[i])
  }

  lemma CollapseJoinStep(w: string, sep: string, tail: string, tailSlug: string)
    requires IsSlugWord(w) && IsSeparator(sep)
    requires |tail| > 0 && IsSlugChar(tail[0]) && Collapse(tail) == tailSlug
    ensures Collapse(w + sep + tail) == w + "-" + tailSlug
  {
    assert w + sep + tail == w + (sep + tail);
    CollapseWord(w, sep + tail);
    CollapseSeparator(sep, tail);
    assert w + ("-" + tailSlug) == w + "-" + tailSlug;
  }

  /** A join of non-empty words starts with the first word's first character. */
  lemma JoinHead(ws: seq<string>, sep: string)
    requires |ws| > 0 && |ws[0]| > 0
    ensures |Join(ws, sep)| > 0 && Join(ws, sep)[0] == ws[0][0]
  {
    if |ws| > 1 {
      assert Join(ws, sep) == ws[0] + (sep + Join(ws[1..], sep));
    }
  }

  // ---------------------------------------------------------------- category list

  /** An entry of the category bar: the raw category name and its slug. */
  datatype CategoryLink = CategoryLink(name: string, slug: string)

  function RawCategories(ps: seq<Product>): (r: seq<string>)
    ensures |r| == |ps| && forall i :: 0 <= i < |ps| ==> r[i] == ps[i].category
  {
    seq(|ps|, i requires 0 <= i < |ps| => ps[i].category)
  }

  /** The category list: the distinct raw categories, sorted, each paired
      with its slug. */
  function CategoryList(ps: seq<Product>): (r: seq<CategoryLink>)
    ensures forall c :: c in Names(r) <==> c in RawCategories(ps)
    ensures NoDup(Names(r))
    ensures Ordering.Sorted(Names(r))
    ensures forall j :: 0 <= j < |r| ==> r[j].slug == Slugify(r[j].name)
  {
    var names := SortedCategoryNames(ps);
    var r := seq(|names|, j requires 0 <= j < |names| => CategoryLink(names[j], Slugify(names[j])));
    assert Names(r) == names;
    r
  }

  /** The distinct raw categories, sorted. */
  function SortedCategoryNames(ps: seq<Product>): (names: seq<string>)
    ensures forall c :: c in names <==> c in RawCategories(ps)
    ensures NoDup(names)
    ensures Ordering.Sorted(names)
  {
    var distinct := Distinct(RawCategories(ps));
    var names := Ordering.Sort(distinct);
    NoDupPermutation(names, distinct);
    SameElements(names, distinct);
    names
  }

  lemma SameElements(a: seq<string>, b: seq<string>)
    requires multiset(a) == multiset(b)
    ensures forall c :: c in a <==> c in b
  {
    forall c ensures c in a <==> c in b {
      assert c in a <==> c in multiset(a);
      assert c in b <==> c in multiset(b);
    }
  }

  function Names(cats: seq<CategoryLink>): (r: seq<string>)
    ensures |r| == |cats| && forall j :: 0 <= j < |cats| ==> r[j] == cats[j].name
  {
    seq(|cats|, j requires 0 <= j < |cats| => cats[j].name)
  }

  function LinkSlugs(cats: seq<CategoryLink>): (r: seq<string>)
    ensures |r| == |cats| && forall j :: 0 <= j < |cats| ==> r[j] == cats[j].slug
  {
    seq(|cats|, j requires 0 <= j < |cats| => cats[j].slug)
  }

  // ---------------------------------------------------------------- search

  /** The search test: the lower-cased name or the lower-cased
      description contains the lower-cased term; an absent description never
      matches. */
  predicate MatchesSearch(p: Product, term: string)
    ensures Lower(term) == "" ==> MatchesSearch(p, term)
  {
    var t := Lower(term);
    ContainsEmpty(Lower(p.name));
    || Contains(Lower(p.name), t)
    || (p.description.Some? && Contains(Lower(p.description.value), t))
  }

  /** `filteredProducts`: the products matching the search term, in order. */
  function FilterProducts(ps: seq<Product>, term: string): (r: seq<Product>)
    ensures IsSubseq(r, ps)
    ensures forall p :: multiset(r)[p] == if MatchesSearch(p, term) then multiset(ps)[p] else 0
    ensures forall i :: 0 <= i < |r| ==> MatchesSearch(r[i], term)
  {
    Filter(ps, p => MatchesSearch(p, term))
  }

  /** A product is kept exactly when it matches. */
  lemma FilterMembers(ps: seq<Product>, term: string, p: Product)
    ensures p in FilterProducts(ps, term) <==> p in ps && MatchesSearch(p, term)
  {
    FilterMembership(ps, p => MatchesSearch(p, term), p);
  }

  /** The empty search keeps every product, in order. */
  lemma EmptySearchKeepsAll(ps: seq<Product>)
    ensures FilterProducts(ps, "") == ps
  {
    forall i | 0 <= i < |ps| ensures MatchesSearch(ps[i], "") {
      ContainsEmpty(Lower(ps[i].name));
    }
    FilterKeepsAll(ps, p => MatchesSearch(p, ""));
  }

  // ---------------------------------------------------------------- grouping

  /** The grouping key of a product. */
  function CategorySlug(p: Product): string
  {
    Slugify(p.category)
  }

  /** `productsByCategory`: under each slug met in
      the filtered list, exactly the filtered products with that slug, in order. */
  function ProductsByCategory(filtered: seq<Product>): (g: map<string, seq<Product>>)
    ensures GroupsOf(g, filtered, CategorySlug)
  {
    GroupBy(filtered, CategorySlug)
  }

  /** A group is non-empty, keeps the input order, holds only products of its
      slug and every filtered product of that slug, as often as it occurs. */
  lemma GroupContents(filtered: seq<Product>, k: string)
    requires k in ProductsByCategory(filtered)
    ensures var grp := ProductsByCategory(filtered)[k];
      && |grp| > 0 && IsSubseq(grp, filtered)
      && (forall j :: 0 <= j < |grp| ==> CategorySlug(grp[j]) == k)
      && (forall p :: CategorySlug(p) == k ==> multiset(grp)[p] == multiset(filtered)[p])
  {
  }

  /** A slug is a key exactly when some filtered product has it. */
  lemma GroupKeys(filtered: seq<Product>, k: string)
    ensures k in ProductsByCategory(filtered) <==> k in Slugs(filtered)
  {
    if k in Slugs(filtered) {
      var i :| 0 <= i < |filtered| && Slugs(filtered)[i] == k;
      assert CategorySlug(filtered[i]) == k;
    }
  }

  /** Each product lies in the group of its own slug and in no other. */
  lemma ExactlyOneGroup(filtered: seq<Product>, p: Product, k: string)
    requires p in filtered
    ensures CategorySlug(p) in ProductsByCategory(filtered)
    ensures k in ProductsByCategory(filtered) ==> (p in ProductsByCategory(filtered)[k] <==> k == CategorySlug(p))
  {
    var g := ProductsByCategory(filtered);
    var i :| 0 <= i < |filtered| && filtered[i] == p;
    assert CategorySlug(filtered[i]) == CategorySlug(p);
    if k in g {
      GroupContents(filtered, k);
      assert p in g[k] <==> multiset(g[k])[p] > 0;
      assert multiset(filtered)[p] > 0;
    }
  }

  /** Sum of the group sizes under the given keys. */
  function GroupSizes(keys: seq<string>, g: map<string, seq<Product>>): nat
  {
    if |keys| == 0 then 0
    else (if keys[0] in g then |g[keys[0]]| else 0) + GroupSizes(keys[1..], g)
  }

  /** Sizes of the groups under a list of keys are the per-key product counts. */
  lemma {:induction false} GroupSizesAreCounts(keys: seq<string>, filtered: seq<Product>)
    ensures GroupSizes(keys, ProductsByCategory(filtered)) == SumKeyCounts(keys, filtered, CategorySlug)
    decreases |keys|
  {
    if |keys| > 0 {
      GroupSizesAreCounts(keys[1..], filtered);
      var g := ProductsByCategory(filtered);
      if keys[0] !in g {
        KeyCountAbsent(filtered, CategorySlug, keys[0]);
      }
    }
  }

  /** The groups partition the filtered list: their sizes add up to its length. */
  lemma GroupsPartition(filtered: seq<Product>)
    ensures GroupSizes(Distinct(Slugs(filtered)), ProductsByCategory(filtered)) == |filtered|
  {
    var keys := Distinct(Slugs(filtered));
    GroupSizesAreCounts(keys, filtered);
    forall i | 0 <= i < |filtered| ensures CategorySlug(filtered[i]) in keys {
      assert CategorySlug(filtered[i]) == Slugs(filtered)[i];
    }
    PartitionSize(keys, filtered, CategorySlug);
  }

  function Slugs(ps: seq<Product>): (r: seq<string>)
    ensures |r| == |ps| && forall i :: 0 <= i < |ps| ==> r[i] == CategorySlug(ps[i])
  {
    seq(|ps|, i requires 0 <= i < |ps| => CategorySlug(ps[i]))
  }

  // ---------------------------------------------------------------- rendering

  /** A rendered category section: its heading and its product cards. */
  datatype Section = Section(category: CategoryLink, items: seq<Product>)

  /** The categories the sections are headed by, in order. */
  function Headings(r: seq<Section>): (h: seq<CategoryLink>)
    ensures |h| == |r| && forall j :: 0 <= j < |r| ==> h[j] == r[j].category
  {
    seq(|r|, j requires 0 <= j < |r| => r[j].category)
  }

  lemma HeadingsCons(s: Section, rest: seq<Section>)
    ensures Headings([s] + rest) == [s.category] + Headings(rest)
  {
    assert Headings([s] + rest)[1..] == Headings(rest);
  }

  /** The render loop: walk the category list in order and render the group
      under each category's slug, skipping a category whose group is missing
      or empty. */
  function Sections(cats: seq<CategoryLink>, g: map<string, seq<Product>>): (r: seq<Section>)
    ensures forall j :: 0 <= j < |r| ==> r[j].category in cats && r[j].category.slug in g && r[j].items == g[r[j].category.slug]
    ensures forall j :: 0 <= j < |r| ==> |r[j].items| > 0
    ensures IsSubseq(Headings(r), cats)
  {
    if |cats| == 0 then []
    else
      var rest := Sections(cats[1..], g);
      if cats[0].slug in g && |g[cats[0].slug]| > 0 then
        SectionsKeep(cats, g, rest);
        [Section(cats[0], g[cats[0].slug])] + rest
      else
        SectionsSkip(cats, g, rest);
        rest
  }

  /** What `Sections` promises of `r` for the list `cats`. */
  ghost predicate SectionsFit(r: seq<Section>, cats: seq<CategoryLink>, g: map<string, seq<Product>>) {
    && (forall j :: 0 <= j < |r| ==> r[j].category in cats && r[j].category.slug in g && r[j].items == g[r[j].category.slug])
    && (forall j :: 0 <= j < |r| ==> |r[j].items| > 0)
    && IsSubseq(Headings(r), cats)
  }

  /** A section for the head in front of the tail's sections fits the list. */
  lemma SectionsKeep(cats: seq<CategoryLink>, g: map<string, seq<Product>>, rest: seq<Section>)
    requires |cats| > 0 && cats[0].slug in g && |g[cats[0].slug]| > 0
    requires SectionsFit(rest, cats[1..], g)
    ensures SectionsFit([Section(cats[0], g[cats[0].slug])] + rest, cats, g)
  {
    var s := Section(cats[0], g[cats[0].slug]);
    var r := [s] + rest;
    HeadingsCons(s, rest);
    SubseqKeepHead(Headings(rest), cats);
    forall j | 0 <= j < |r|
      ensures r[j].category in cats && r[j].category.slug in g && r[j].items == g[r[j].category.slug] && |r[j].items| > 0
    {
      if j > 0 {
        assert r[j] == rest[j - 1];
        assert rest[j - 1].category in cats[1..];
      }
    }
  }

  /** The tail's sections fit the whole list. */
  lemma SectionsSkip(cats: seq<CategoryLink>, g: map<string, seq<Product>>, rest: seq<Section>)
    requires |cats| > 0
    requires SectionsFit(rest, cats[1..], g)
    ensures SectionsFit(rest, cats, g)
  {
    SubseqSkipHead(Headings(rest), cats);
    forall j | 0 <= j < |rest| ensures rest[j].category in cats {
      assert rest[j].category in cats[1..];
    }
  }

  /** A category whose slug has a non-empty group gets a section. */
  lemma {:induction false} SectionOf(cats: seq<CategoryLink>, g: map<string, seq<Product>>, c: CategoryLink)
    requires c in cats && c.slug in g && |g[c.slug]| > 0
    ensures exists j :: 0 <= j < |Sections(cats, g)| && Sections(cats, g)[j].category == c
    decreases |cats|
  {
    if cats[0] == c {
      SectionsHead(cats, g);
    } else {
      assert c in cats[1..];
      SectionOf(cats[1..], g, c);
      var j :| 0 <= j < |Sections(cats[1..], g)| && Sections(cats[1..], g)[j].category == c;
      SectionsTail(cats, g, j);
    }
  }

  /** The first category, when its group is non-empty, gets the first section. */
  lemma SectionsHead(cats: seq<CategoryLink>, g: map<string, seq<Product>>)
    requires |cats| > 0 && cats[0].slug in g && |g[cats[0].slug]| > 0
    ensures |Sections(cats, g)| > 0 && Sections(cats, g)[0].category == cats[0]
  {
  }

  /** Each section of the rest of the list is a section of the whole list. */
  lemma SectionsTail(cats: seq<CategoryLink>, g: map<string, seq<Product>>, j: int)
    requires |cats| > 0 && 0 <= j < |Sections(cats[1..], g)|
    ensures exists k :: 0 <= k < |Sections(cats, g)| && Sections(cats, g)[k] == Sections(cats[1..], g)[j]
  {
    var rest := Sections(cats[1..], g);
    if cats[0].slug in g && |g[cats[0].slug]| > 0 {
      assert Sections(cats, g)[j + 1] == rest[j];
    } else {
      assert Sections(cats, g)[j] == rest[j];
    }
  }

  /** The page: the category list of all products, the groups of the products
      matching the search. */
  function CatalogView(ps: seq<Product>, term: string): seq<Section>
  {
    Sections(CategoryList(ps), ProductsByCategory(FilterProducts(ps, term)))
  }

  /** Number of product cards on the page. */
  function RenderedCount(sections: seq<Section>): nat
  {
    if |sections| == 0 then 0 else |sections[0].items| + RenderedCount(sections[1..])
  }

  /** No product is silently dropped: every product that matches the search
      is shown in some section, because the category list and the grouping use
      the same slug function. */
  lemma EveryMatchRendered(ps: seq<Product>, term: string, p: Product)
    requires p in FilterProducts(ps, term)
    ensures exists j :: 0 <= j < |CatalogView(ps, term)| && p in CatalogView(ps, term)[j].items
  {
    var filtered := FilterProducts(ps, term);
    var cats := CategoryList(ps);
    var g := ProductsByCategory(filtered);
    var c := LinkOf(ps, term, p);
    assert c in cats;
    ExactlyOneGroup(filtered, p, c.slug);
    assert c.slug in g && p in g[c.slug];
    ShownIn(cats, g, c, p);
    assert CatalogView(ps, term) == Sections(cats, g);
  }

  /** A product in the group of a listed category's slug is on some card. */
  lemma ShownIn(cats: seq<CategoryLink>, g: map<string, seq<Product>>, c: CategoryLink, p: Product)
    requires c in cats && c.slug in g && p in g[c.slug]
    ensures exists j :: 0 <= j < |Sections(cats, g)| && p in Sections(cats, g)[j].items
  {
    SectionOf(cats, g, c);
    var v := Sections(cats, g);
    var j :| 0 <= j < |v| && v[j].category == c;
    assert v[j].items == g[c.slug];
  }

  /** The category-list entry of a matching product's category. */
  lemma LinkOf(ps: seq<Product>, term: string, p: Product) returns (c: CategoryLink)
    requires p in FilterProducts(ps, term)
    ensures c in CategoryList(ps) && c.slug == CategorySlug(p)
  {
    FilterMembers(ps, term, p);
    c := ListedCategory(ps, p);
  }

  /** The category of every product is in the category list. */
  lemma ListedCategory(ps: seq<Product>, p: Product) returns (c: CategoryLink)
    requires p in ps
    ensures c in CategoryList(ps) && c.name == p.category && c.slug == CategorySlug(p)
  {
    var raw := RawCategories(ps);
    var i :| 0 <= i < |ps| && ps[i] == p;
    assert raw[i] == p.category;
    var cats := CategoryList(ps);
    var names := Names(cats);
    assert p.category in names;
    var jc :| 0 <= jc < |names| && names[jc] == p.category;
    c := cats[jc];
  }

  /** With the empty search every product is shown. */
  lemma EmptySearchRendersAll(ps: seq<Product>, p: Product)
    requires p in ps
    ensures exists j :: 0 <= j < |CatalogView(ps, "")| && p in CatalogView(ps, "")[j].items
  {
    EmptySearchKeepsAll(ps);
    EveryMatchRendered(ps, "", p);
  }

  /** Card count of the sections over a list of categories is the sum of the
      group sizes under their slugs. */
  lemma {:induction false} RenderedIsGroupSizes(cats: seq<CategoryLink>, g: map<string, seq<Product>>)
    ensures RenderedCount(Sections(cats, g)) == GroupSizes(LinkSlugs(cats), g)
    decreases |cats|
  {
    if |cats| > 0 {
      RenderedIsGroupSizes(cats[1..], g);
      assert LinkSlugs(cats)[1..] == LinkSlugs(cats[1..]);
    }
  }

  /** When no two categories share a slug, every matching product is shown
      exactly once: the card count equals the number of matches. */
  lemma DistinctSlugsRenderOnce(ps: seq<Product>, term: string)
    requires NoDup(LinkSlugs(CategoryList(ps)))
    ensures RenderedCount(CatalogView(ps, term)) == |FilterProducts(ps, term)|
  {
    var filtered := FilterProducts(ps, term);
    var cats := CategoryList(ps);
    var keys := LinkSlugs(cats);
    RenderedIsGroupSizes(cats, ProductsByCategory(filtered));
    GroupSizesAreCounts(keys, filtered);
    forall i | 0 <= i < |filtered| ensures CategorySlug(filtered[i]) in keys {
      var c := LinkOf(ps, term, filtered[i]);
      var j :| 0 <= j < |cats| && cats[j] == c;
      assert keys[j] == c.slug;
    }
    PartitionSize(keys, filtered, CategorySlug);
  }

  /** Colliding slugs: two different category names with the same slug render
      the same group twice, under two headings. */
  lemma CollidingSlugsRenderTwice(ps: seq<Product>, term: string, a: string, b: string, p: Product)
    requires a != b && Slugify(a) == Slugify(b)
    requires a in RawCategories(ps) && b in RawCategories(ps)
    requires p in FilterProducts(ps, term) && CategorySlug(p) == Slugify(a)
    ensures var v := CatalogView(ps, term);
      exists i, j :: 0 <= i < |v| && 0 <= j < |v| && i != j && v[i].items == v[j].items
        && v[i].category.name == a && v[j].category.name == b
  {
    var filtered := FilterProducts(ps, term);
    var cats := CategoryList(ps);
    var g := ProductsByCategory(filtered);
    var ja :| 0 <= ja < |cats| && Names(cats)[ja] == a;
    var jb :| 0 <= jb < |cats| && Names(cats)[jb] == b;
    assert cats[ja] in cats && cats[jb] in cats;
    assert cats[ja].slug == Slugify(a) && cats[jb].slug == Slugify(b);
    ExactlyOneGroup(filtered, p, Slugify(a));
    assert Slugify(a) in g && |g[Slugify(a)]| > 0;
    TwoSections(cats, g, cats[ja], cats[jb]);
    assert CatalogView(ps, term) == Sections(cats, g);
  }

  /** Two different listed categories with the same non-empty group get two
      sections showing that group. */
  lemma TwoSections(cats: seq<CategoryLink>, g: map<string, seq<Product>>, ca: CategoryLink, cb: CategoryLink)
    requires ca in cats && cb in cats && ca.name != cb.name && ca.slug == cb.slug
    requires ca.slug in g && |g[ca.slug]| > 0
    ensures var v := Sections(cats, g);
      exists i, j :: 0 <= i < |v| && 0 <= j < |v| && i != j && v[i].items == v[j].items
        && v[i].category.name == ca.name && v[j].category.name == cb.name
  {
    SectionOf(cats, g, ca);
    SectionOf(cats, g, cb);
    var v := Sections(cats, g);
    var i :| 0 <= i < |v| && v[i].category == ca;
    var j :| 0 <= j < |v| && v[j].category == cb;
    assert v[i].items == g[ca.slug] == v[j].items;
  }
}

=== FILE: category_names.dfy ===
/** The three display-name rules for categories found in the source:
    `formatCategoryName` of src/hooks/useProducts.ts, the hyphen-to-space
    rule of src/api/products.ts, and the title-casing the admin dashboard
    (src/pages/AdminDashboard.tsx) applies to a new category name. */
module CategoryNames {
  import opened Text
  import Catalog

  // ---------------------------------------------------------------- formatCategoryName

  function CapitalizeAll(ws: seq<string>): (r: seq<string>)
    ensures |r| == |ws| && forall i :: 0 <= i < |ws| ==> r[i] == CapitalizeFirst(ws[i])
  {
    seq(|ws|, i requires 0 <= i < |ws| => CapitalizeFirst(ws[i]))
  }

  /** The slug with its own literal result in the source. */
  const SpecialSlug := "cooking-essential-oils"

  /** `formatCategoryName`: split on `-`, upper-case each word's first
      character, and join two words with " & " and any other number with a
      space; one slug has a literal result. */
  function FormatCategoryName(slug: string): (r: string)
    ensures '-' !in r
  {
    if slug == SpecialSlug then "Cooking Essential Oils" else GeneralRule(slug)
  }

  /** The general rule, without the literal special case. No `-` survives it. */
  function GeneralRule(slug: string): (r: string)
    ensures '-' !in r
  {
    var ws := Split(slug, '-');
    var words := CapitalizeAll(ws);
    CapitalizedNoHyphen(ws);
    var sep := if |words| == 2 then " & " else " ";
    JoinKeeps(words, sep, c => c != '-');
    if |words| == 2 then
      JoinTwo(words[0], words[1], " & ");
      words[0] + " & " + words[1]
    else Join(words, " ")
  }

  /** Capitalising hyphen-free words adds no hyphen. */
  lemma CapitalizedNoHyphen(ws: seq<string>)
    requires forall k :: 0 <= k < |ws| ==> '-' !in ws[k]
    ensures forall k, i :: 0 <= k < |ws| && 0 <= i < |CapitalizeAll(ws)[k]| ==> CapitalizeAll(ws)[k][i] != '-'
  {
    forall k, i | 0 <= k < |ws| && 0 <= i < |CapitalizeAll(ws)[k]| ensures CapitalizeAll(ws)[k][i] != '-' {
      var w := ws[k];
      if i > 0 {
        assert CapitalizeAll(ws)[k][i] == CapitalizeFirst(w)[1..][i - 1] == w[i];
      } else {
        assert w[0] != '-';
      }
    }
  }

  /** The literal special case is what the general rule produces anyway, so
      `formatCategoryName` is the general rule on every slug. */
  lemma SpecialCaseIsGeneral(slug: string)
    ensures FormatCategoryName(slug) == GeneralRule(slug)
  {
    if slug == SpecialSlug {
      SpecialRule(slug);
    }
  }

  lemma SpecialRule(slug: string)
    requires slug == "cooking-essential-oils"
    ensures GeneralRule(slug) == "Cooking Essential Oils"
  {
    SpecialSplit(slug);
    SpecialWords();
    ThreeWordRule(slug, "cooking", "essential", "oils", "Cooking", "Essential", "Oils");
    SpecialJoined();
  }

  lemma SpecialJoined()
    ensures "Cooking" + " " + "Essential" + " " + "Oils" == "Cooking Essential Oils"
  {
    assert "Cooking" + " " + "Essential" == "Cooking Essential";
  }

  lemma SpecialSplit(slug: string)
    requires slug == "cooking-essential-oils"
    ensures Split(slug, '-') == ["cooking", "essential", "oils"]
  {
    SplitOfJoin(["cooking", "essential", "oils"], slug);
  }

  lemma SpecialWords()
    ensures CapitalizeFirst("cooking") == "Cooking"
    ensures CapitalizeFirst("essential") == "Essential"
    ensures CapitalizeFirst("oils") == "Oils"
  {
    CapitalizeWord("cooking", "Cooking");
    CapitalizeWord("essential", "Essential");
    CapitalizeWord("oils", "Oils");
  }

  /** The general rule on a slug of three words joins them with spaces. */
  lemma ThreeWordRule(slug: string, a: string, b: string, c: string, a': string, b': string, c': string)
    requires Split(slug, '-') == [a, b, c]
    requires CapitalizeFirst(a) == a' && CapitalizeFirst(b) == b' && CapitalizeFirst(c) == c'
    ensures GeneralRule(slug) == a' + " " + b' + " " + c'
  {
    assert CapitalizeAll([a, b, c]) == [a', b', c'];
    JoinThree([a', b', c'], " ", a' + " " + b' + " " + c');
  }

  /** A two-word slug other than the special one reads "A & B". */
  lemma TwoWordRule(slug: string, a: string, b: string, a': string, b': string)
    requires Split(slug, '-') == [a, b] && slug != SpecialSlug
    requires CapitalizeFirst(a) == a' && CapitalizeFirst(b) == b'
    ensures FormatCategoryName(slug) == a' + " & " + b'
  {
    assert CapitalizeAll([a, b]) == [a', b'];
  }

  /** Joining three words, spelled out. */
  lemma JoinThree(ws: seq<string>, sep: string, s: string)
    requires |ws| == 3 && s == ws[0] + sep + ws[1] + sep + ws[2]
    ensures Join(ws, sep) == s
  {
    var last := ws[1..][1..];
    assert last == [ws[2]];
    assert Join(last, sep) == ws[2];
    assert Join(ws[1..], sep) == ws[1] + sep + ws[2];
    assert Join(ws, sep) == ws[0] + sep + (ws[1] + sep + ws[2]);
  }

  /** A slug spelled out as its words joined by `-` splits into those words. */
  lemma SplitOfJoin(ws: seq<string>, slug: string)
    requires |ws| > 0 && forall k :: 0 <= k < |ws| ==> '-' !in ws[k]
    requires Join(ws, "-") == slug || (|ws| == 3 && slug == ws[0] + "-" + ws[1] + "-" + ws[2]) || (|ws| == 2 && slug == ws[0] + "-" + ws[1])
    ensures Split(slug, '-') == ws
  {
    if |ws| == 3 && slug == ws[0] + "-" + ws[1] + "-" + ws[2] {
      JoinThree(ws, "-", slug);
    } else if |ws| == 2 && slug == ws[0] + "-" + ws[1] {
      JoinTwo(ws[0], ws[1], "-");
    }
    SplitJoin(ws, '-');
  }

  /** Two of the catalogue's two-word slugs. */
  lemma GrainsSides(slug: string)
    requires slug == "grains-sides"
    ensures FormatCategoryName(slug) == "Grains & Sides"
  {
    TwoWordSplit(slug, "grains", "sides");
    CapitalizeWord("grains", "Grains");
    CapitalizeWord("sides", "Sides");
    TwoWordRule(slug, "grains", "sides", "Grains", "Sides");
    GrainsJoined();
  }

  lemma GrainsJoined()
    ensures "Grains" + " & " + "Sides" == "Grains & Sides"
  {
    assert "Grains" + " & " == "Grains & ";
  }

  /** A slug spelled as two hyphen-free words around one `-` splits into them. */
  lemma TwoWordSplit(slug: string, a: string, b: string)
    requires '-' !in a && '-' !in b && slug == a + "-" + b
    ensures Split(slug, '-') == [a, b]
  {
    SplitOfJoin([a, b], slug);
  }

  lemma SpicesSeasonings(slug: string)
    requires slug == "spices-seasonings"
    ensures FormatCategoryName(slug) == "Spices & Seasonings"
  {
    TwoWordSplit(slug, "spices", "seasonings");
    SpicesWords();
    TwoWordRule(slug, "spices", "seasonings", "Spices", "Seasonings");
    SpicesJoined();
  }

  lemma SpicesJoined()
    ensures "Spices" + " & " + "Seasonings" == "Spices & Seasonings"
  {
    assert "Spices" + " & " == "Spices & ";
  }

  lemma SpicesWords()
    ensures CapitalizeFirst("spices") == "Spices"
    ensures CapitalizeFirst("seasonings") == "Seasonings"
  {
    CapitalizeWord("spices", "Spices");
    CapitalizeWord("seasonings", "Seasonings");
  }

  /** Capitalising one literal word. */
  lemma CapitalizeWord(w: string, cap: string)
    requires |w| > 0 && |cap| == |w| && cap[0] == UpperChar(w[0]) && cap[1..] == w[1..]
    ensures CapitalizeFirst(w) == cap
  {
  }

  /** On a well-formed slug the display name is the capitalised words joined
      by " & " (two words) or a space (any other number). */
  lemma {:induction false} DisplayOfWords(ws: seq<string>)
    requires |ws| > 0 && forall k :: 0 <= k < |ws| ==> '-' !in ws[k]
    ensures FormatCategoryName(Join(ws, "-")) == Join(CapitalizeAll(ws), if |ws| == 2 then " & " else " ")
  {
    var slug := Join(ws, "-");
    SpecialCaseIsGeneral(slug);
    SplitOfJoin(ws, slug);
    if |ws| == 2 {
      JoinTwo(CapitalizeFirst(ws[0]), CapitalizeFirst(ws[1]), " & ");
      assert CapitalizeAll(ws) == [CapitalizeFirst(ws[0]), CapitalizeFirst(ws[1])];
    }
  }

  /** A slug made of `[a-z0-9]` words joined by single `-` is recovered from its
      display name by the catalogue page's slug rule: the two naming schemes
      agree on well-formed slugs. */
  lemma {:induction false} SlugOfDisplayName(ws: seq<string>)
    requires |ws| > 0
    requires forall k :: 0 <= k < |ws| ==> |ws[k]| > 0 && forall i :: 0 <= i < |ws[k]| ==> Catalog.IsSlugChar(ws[k][i])
    ensures Catalog.Slugify(FormatCategoryName(Join(ws, "-"))) == Join(ws, "-")
  {
    forall k | 0 <= k < |ws| ensures '-' !in ws[k] {
      assert forall i :: 0 <= i < |ws[k]| ==> ws[k][i] != '-';
    }
    var sep := if |ws| == 2 then " & " else " ";
    DisplayOfWords(ws);
    LowerJoinCapitalized(ws, sep);
    Catalog.CollapseJoin(ws, sep);
  }

  /** Lower-casing a join of capitalised lower-case words restores the words. */
  lemma {:induction false} LowerJoinCapitalized(ws: seq<string>, sep: string)
    requires forall k :: 0 <= k < |ws| ==> forall i :: 0 <= i < |ws[k]| ==> Catalog.IsSlugChar(ws[k][i])
    requires forall i :: 0 <= i < |sep| ==> !IsAsciiUpper(sep[i])
    ensures Lower(Join(CapitalizeAll(ws), sep)) == Join(ws, sep)
    decreases |ws|
  {
    if |ws| > 0 {
      LowerCapitalized(ws[0]);
      assert Lower(sep) == sep;
      if |ws| > 1 {
        assert CapitalizeAll(ws)[1..] == CapitalizeAll(ws[1..]);
        LowerJoinCapitalized(ws[1..], sep);
        var tail := Join(CapitalizeAll(ws[1..]), sep);
        LowerAppend(CapitalizeFirst(ws[0]) + sep, tail);
        LowerAppend(CapitalizeFirst(ws[0]), sep);
      }
    }
  }

  lemma LowerCapitalized(w: string)
    requires forall i :: 0 <= i < |w| ==> Catalog.IsSlugChar(w[i])
    ensures Lower(CapitalizeFirst(w)) == w
  {
  }

  // ---------------------------------------------------------------- the API's rule

  /** The catalogue API's name rule: every `-` becomes a space. */
  function SpaceName(slug: string): (r: string)
    ensures |r| == |slug| && '-' !in r
    ensures forall i :: 0 <= i < |slug| ==> r[i] == (if slug[i] == '-' then ' ' else slug[i])
  {
    ReplaceChar(slug, '-', ' ')
  }

  /** A slug without spaces is recovered by turning the spaces back into `-`. */
  lemma SpaceNameInverse(slug: string)
    requires ' ' !in slug
    ensures ReplaceChar(SpaceName(slug), ' ', '-') == slug
  {
    ReplaceCharInverse(slug, '-', ' ');
  }

  // ---------------------------------------------------------------- the admin rule

  /** `word.charAt(0).toUpperCase() + word.slice(1).toLowerCase()`. */
  function TitleWord(w: string): (r: string)
    ensures |r| == |w| && Lower(r) == Lower(w)
    ensures |w| > 0 ==> !IsAsciiLower(r[0])
    ensures forall i :: 1 <= i < |r| ==> !IsAsciiUpper(r[i])
  {
    if |w| == 0 then ""
    else
      TitleFacts(w[0], w[1..]);
      assert w == [w[0]] + w[1..];
      [UpperChar(w[0])] + Lower(w[1..])
  }

  /** The title-cased word `[UpperChar(c)] + Lower(t)` agrees with `[c] + t`
      up to case and has no capital after its first character. */
  lemma TitleFacts(c: char, t: string)
    ensures var r := [UpperChar(c)] + Lower(t);
      && Lower(r) == Lower([c] + t)
      && !IsAsciiLower(r[0])
      && forall i :: 1 <= i < |r| ==> !IsAsciiUpper(r[i])
  {
    var r := [UpperChar(c)] + Lower(t);
    LowerAppend([UpperChar(c)], Lower(t));
    LowerAppend([c], t);
    LowerNoCapitals(Lower(t));
    assert Lower([UpperChar(c)]) == [LowerChar(UpperChar(c))] == [LowerChar(c)] == Lower([c]);
    assert forall i :: 1 <= i < |r| ==> r[i] == Lower(t)[i - 1];
  }

  function TitleAll(ws: seq<string>): (r: seq<string>)
    ensures |r| == |ws| && forall i :: 0 <= i < |ws| ==> r[i] == TitleWord(ws[i])
  {
    seq(|ws|, i requires 0 <= i < |ws| => TitleWord(ws[i]))
  }

  /** The name the admin dashboard stores for a new category: trimmed, split on
      whitespace runs, each word title-cased, joined with single spaces. */
  function NormaliseCategoryName(name: string): (r: string)
    ensures r == "" <==> Trim(name) == ""
  {
    var t := Trim(name);
    var ws := TitleAll(Words(name));
    if t != "" then
      TrimSlice(name);
      EmptyTokens(t);
      TitleWordsPlain(Tokens(t));
      JoinEnds(ws);
      Join(ws, " ")
    else
      assert ws == [""];
      Join(ws, " ")
  }

  /** The normalised name has no outer whitespace, and its words are the
      title-cased words of the input. */
  lemma NormalisedShape(name: string)
    ensures var r := NormaliseCategoryName(name);
      Trim(r) == r && (Trim(name) != "" ==> Words(r) == TitleAll(Words(name)))
  {
    var r := NormaliseCategoryName(name);
    var t := Trim(name);
    if t == "" {
      assert r == TitleWord("") == "";
    } else {
      var ws := TitleAll(Tokens(t));
      TitleWordsPlain(Tokens(t));
      TrimSlice(name);
      EmptyTokens(t);
      JoinEnds(ws);
      TrimNoOp(r);
      TokensJoin(ws);
    }
  }

  /** A non-empty string with no whitespace at either end has a token. */
  lemma EmptyTokens(t: string)
    requires |t| > 0 && !IsSpace(t[0])
    ensures |Tokens(t)| > 0
  {
  }

  /** Title-casing keeps words non-empty and free of whitespace. */
  lemma TitleWordsPlain(ws: seq<string>)
    requires forall i :: 0 <= i < |ws| ==> |ws[i]| > 0 && forall j :: 0 <= j < |ws[i]| ==> !IsSpace(ws[i][j])
    ensures forall i :: 0 <= i < |ws| ==> |TitleAll(ws)[i]| > 0 && forall j :: 0 <= j < |TitleAll(ws)[i]| ==> !IsSpace(TitleAll(ws)[i][j])
  {
    forall i, j | 0 <= i < |ws| && 0 <= j < |TitleAll(ws)[i]| ensures !IsSpace(TitleAll(ws)[i][j]) {
      var w := ws[i];
      CaseKeepsSpace(w[j]);
      if j > 0 {
        assert TitleAll(ws)[i][j] == Lower(w[1..])[j - 1] == LowerChar(w[j]);
      }
    }
  }

  lemma TitleWordIdempotent(w: string)
    ensures TitleWord(TitleWord(w)) == TitleWord(w)
  {
  }

  /** Normalising a normalised name changes nothing. */
  lemma NormaliseIdempotent(name: string)
    ensures NormaliseCategoryName(NormaliseCategoryName(name)) == NormaliseCategoryName(name)
  {
    var r := NormaliseCategoryName(name);
    NormalisedShape(name);
    if Trim(name) == "" {
      assert r == "";
      assert Words(r) == [""];
      assert TitleAll([""]) == [""];
    } else {
      var ws := Words(name);
      assert Words(r) == TitleAll(ws);
      assert TitleAll(TitleAll(ws)) == TitleAll(ws) by {
        forall i | 0 <= i < |ws| ensures TitleWord(TitleWord(ws[i])) == TitleWord(ws[i]) {
          TitleWordIdempotent(ws[i]);
        }
      }
    }
  }
}

=== FILE: dev_server.dfy ===
/** The handler logic of the development server in server.js. Unlike the
    file-backed API it assigns ids itself, answers with single records, and
    deletes only the first record with an id. The fresh id
    (`crypto.randomUUID()`) is a parameter; a failed write is only logged, so
    `written` is what the handler hands to `writeProducts`. */
module DevServer {
  import opened Wrappers
  import opened Seqs
  import opened Records
  import JsonFileApi

  datatype Body = ErrorBody(error: string) | ListBody(products: seq<Record>) | RecordBody(record: Record)

  datatype Reply = Reply(status: nat, body: Body, written: Option<seq<Record>>)

  /** `readProducts`: any read or parse failure reads as the empty list. */
  function ReadProducts(file: JsonFileApi.FileState, parse: string -> Option<seq<Record>>): (r: seq<Record>)
    ensures file.Text? && parse(file.content).Some? ==> r == parse(file.content).value
    ensures !(file.Text? && parse(file.content).Some?) ==> r == []
  {
    match file
    case Text(t) => parse(t).GetOr([])
    case _ => []
  }

  /** `GET /products`. */
  function GetAllOn(ps: seq<Record>): (r: Reply)
    ensures r.status == 200 && r.written.None? && r.body == ListBody(ps)
  {
    Reply(200, ListBody(ps), None)
  }

  /** Both servers answer GET with the list as read and write nothing. */
  lemma GetAllAgrees(ps: seq<Record>)
    ensures GetAllOn(ps).body.products == JsonFileApi.GetAllOn(ps).body.products
    ensures GetAllOn(ps).written == JsonFileApi.GetAllOn(ps).written
  {
  }

  /** `POST /products`: `{ id: newId, ...body }` is appended and returned. No
      field is required, and an id in the body overrides the fresh one. */
  function PostOn(ps: seq<Record>, body: Record, newId: string): (r: Reply)
    ensures r.status == 201 && r.body.RecordBody? && r.written == Some(ps + [r.body.record])
    ensures "id" in r.body.record && ("id" in body ==> r.body.record["id"] == body["id"])
    ensures "id" !in body ==> HasId(r.body.record, newId)
    ensures forall k :: k in body ==> k in r.body.record && r.body.record[k] == body[k]
    ensures r.body.record.Keys == body.Keys + {"id"}
  {
    var created := Merge(map["id" := Str(newId)], body);
    Reply(201, RecordBody(created), Some(ps + [created]))
  }

  /** `PUT /products/:id`: 404 when absent; otherwise the first record with
      the id is merged with the body, written back and returned. */
  function PutOn(ps: seq<Record>, id: string, body: Record): (r: Reply)
    ensures r.status == 404 <==> IndexOfId(ps, id).None?
    ensures r.status == 404 ==> r.written.None?
    ensures r.status != 404 ==>
      var i := IndexOfId(ps, id).value;
      && r.status == 200
      && r.body == RecordBody(Merge(ps[i], body))
      && r.written == Some(ps[i := Merge(ps[i], body)])
  {
    match IndexOfId(ps, id)
    case None => Reply(404, ErrorBody("Product not found"), None)
    case Some(i) =>
      var merged := Merge(ps[i], body);
      Reply(200, RecordBody(merged), Some(ps[i := merged]))
  }

  /** `DELETE /products/:id`: 404 when absent; otherwise only the first record
      with the id is spliced out and returned. */
  function DeleteOn(ps: seq<Record>, id: string): (r: Reply)
    ensures r.status == 404 <==> IndexOfId(ps, id).None?
    ensures r.status == 404 ==> r.written.None?
    ensures r.status != 404 ==> r.status == 200 && r.written.Some? && r.body.RecordBody?
    ensures r.status != 404 ==>
      && |r.written.value| == |ps| - 1
      && multiset(r.written.value) + multiset{r.body.record} == multiset(ps)
      && r.body.record == ps[IndexOfId(ps, id).value]
    ensures r.status != 404 ==>
      var i := IndexOfId(ps, id).value;
      r.written == Some(ps[..i] + ps[i + 1..])
  {
    match IndexOfId(ps, id)
    case None => Reply(404, ErrorBody("Product not found"), None)
    case Some(i) =>
      var w := ps[..i] + ps[i + 1..];
      assert ps == ps[..i] + [ps[i]] + ps[i + 1..];
      Reply(200, RecordBody(ps[i]), Some(w))
  }

  /** Deleting removes the first record with the id: every earlier record is
      kept, and a second record with the same id survives. */
  lemma DeleteFirstOnly(ps: seq<Record>, id: string, i: int, j: int)
    requires 0 <= i < j < |ps| && HasId(ps[i], id) && HasId(ps[j], id)
    ensures DeleteOn(ps, id).status == 200
    ensures ps[j] in DeleteOn(ps, id).written.value
  {
    var k := IndexOfId(ps, id).value;
    assert k <= i;
    var w := ps[..k] + ps[k + 1..];
    assert w[j - 1] == ps[j];
  }

  /** The two servers agree on PUT: the same record is merged into the same
      place; they differ only in what they answer with. */
  lemma PutAgrees(ps: seq<Record>, id: string, body: Record)
    ensures PutOn(ps, id, body).written == JsonFileApi.PutOn(ps, id, body).written
    ensures PutOn(ps, id, body).status == JsonFileApi.PutOn(ps, id, body).status
  {
    var a, b := PutOn(ps, id, body), JsonFileApi.PutOn(ps, id, body);
    if a.status != 404 {
      var i := IndexOfId(ps, id).value;
      assert a.written.value == b.written.value;
    }
  }

  /** When exactly one record has the id the two servers' DELETEs write the
      same list; when none has it, this server answers 404 where the file-backed
      API answers success. */
  lemma DeleteAgreesOnUniqueId(ps: seq<Record>, id: string, i: int)
    requires OnlyAt(ps, id, i)
    ensures DeleteOn(ps, id).written == JsonFileApi.DeleteOn(ps, id).written
  {
    WithoutUniqueId(ps, id, i);
  }

  lemma DeleteAbsentDiffers(ps: seq<Record>, id: string)
    requires IndexOfId(ps, id).None?
    ensures DeleteOn(ps, id).status == 404 && JsonFileApi.DeleteOn(ps, id).status == 200
  {
  }

  /** With two records of the same id the servers diverge: the file-backed API
      drops both, this server only the first. */
  lemma DeleteDuplicatesDiffer(a: Record, b: Record, id: string)
    requires HasId(a, id) && HasId(b, id)
    ensures DeleteOn([a, b], id).written == Some([b])
    ensures JsonFileApi.DeleteOn([a, b], id).written == Some([])
  {
    assert IndexOfId([a, b], id) == Some(0);
    assert [a, b][..0] + [a, b][1..] == [b];
    assert multiset(JsonFileApi.DeleteOn([a, b], id).written.value) == multiset{};
  }

  /** A fresh id that no record has yet finds the posted record, unless the
      body brought an id of its own. */
  lemma PostThenPut(ps: seq<Record>, body: Record, newId: string, update: Record)
    requires IndexOfId(ps, newId).None? && "id" !in body
    ensures var w := PostOn(ps, body, newId).written.value;
      IndexOfId(w, newId) == Some(|ps|) && PutOn(w, newId, update).status == 200
  {
    var w := PostOn(ps, body, newId).written.value;
    assert w[|ps|] == PostOn(ps, body, newId).body.record;
    assert forall j :: 0 <= j < |ps| ==> w[j] == ps[j];
  }
}

=== FILE: json_file_api.dfy ===
/** The handler logic of the file-backed API in backend/index.js. Each handler
    reads the products file, computes a response and the list to write back;
    the handlers are modelled on the list (`...On`) and, separately, the read
    that precedes them. Express routing, CORS and the write itself are left
    out: `written` is what the handler hands to `writeProducts`. */
module JsonFileApi {
  import opened Wrappers
  import opened Seqs
  import opened Records

  /** What a handler answers. */
  datatype Body =
    | ErrorBody(error: string)
    | ListBody(products: seq<Record>)
    | SuccessBody(products: seq<Record>)
    | RecordBody(record: Record)

  /** The status, the body, and the list written back (if any). */
  datatype Reply = Reply(status: nat, body: Body, written: Option<seq<Record>>)

  /** The products file as the read finds it. */
  datatype FileState = Missing | Unreadable | Text(content: string)

  /** `readProducts`: a missing file reads as the empty list; any other read
      error, and a parse error, is thrown to the caller, so the request gets no
      reply. */
  function ReadProducts(file: FileState, parse: string -> Option<seq<Record>>): (r: Result<seq<Record>, string>)
    ensures file == Missing ==> r == Success([])
    ensures r.Failure? <==> file == Unreadable || (file.Text? && parse(file.content).None?)
    ensures file.Text? && r.Success? ==> parse(file.content) == Some(r.value)
  {
    match file
    case Missing => Success([])
    case Unreadable => Failure("read error")
    case Text(t) =>
      match parse(t)
      case Some(ps) => Success(ps)
      case None => Failure("parse error")
  }

  /** `GET /api/products`. */
  function GetAllOn(ps: seq<Record>): (r: Reply)
    ensures r.status == 200 && r.written.None? && r.body == ListBody(ps)
  {
    Reply(200, ListBody(ps), None)
  }

  /** `POST /api/products` once the list is read: a body without a truthy id,
      name or category is refused with 400; any other body is appended, even
      when its id is already taken. */
  function PostOn(ps: seq<Record>, body: Record): (r: Reply)
    ensures r.status == 400 <==> !(Present(body, "id") && Present(body, "name") && Present(body, "category"))
    ensures r.status == 400 ==> r.written.None?
    ensures r.status != 400 ==> r.status == 201 && r.written == Some(ps + [body]) && r.body == SuccessBody(ps + [body])
  {
    if !Present(body, "id") || !Present(body, "name") || !Present(body, "category") then
      Reply(400, ErrorBody("Missing required fields"), None)
    else
      Reply(201, SuccessBody(ps + [body]), Some(ps + [body]))
  }

  /** `PUT /api/products/:id`: 404 when no record has the id; otherwise the
      first such record becomes the merge of itself and the body. */
  function PutOn(ps: seq<Record>, id: string, body: Record): (r: Reply)
    ensures r.status == 404 <==> IndexOfId(ps, id).None?
    ensures r.status == 404 ==> r.written.None?
    ensures r.status != 404 ==> r.status == 200 && r.written.Some? && r.body == SuccessBody(r.written.value)
    ensures r.status != 404 ==>
      var i, w := IndexOfId(ps, id).value, r.written.value;
      && |w| == |ps|
      && w[i] == Merge(ps[i], body)
      && (forall j :: 0 <= j < |ps| && j != i ==> w[j] == ps[j])
  {
    match IndexOfId(ps, id)
    case None => Reply(404, ErrorBody("Product not found"), None)
    case Some(i) =>
      var w := ps[i := Merge(ps[i], body)];
      Reply(200, SuccessBody(w), Some(w))
  }

  /** `DELETE /api/products/:id`: every record with the id is dropped, and the
      reply is a success whether or not any was there. */
  function DeleteOn(ps: seq<Record>, id: string): (r: Reply)
    ensures r.status == 200 && r.written.Some? && r.body == SuccessBody(r.written.value)
    ensures forall x :: multiset(r.written.value)[x] == if HasId(x, id) then 0 else multiset(ps)[x]
    ensures IsSubseq(r.written.value, ps)
  {
    var w := WithoutId(ps, id);
    Reply(200, SuccessBody(w), Some(w))
  }

  /** `GET /api/products/:id`: the first record with the id, or 404. */
  function GetOneOn(ps: seq<Record>, id: string): (r: Reply)
    ensures r.written.None?
    ensures r.status == 404 <==> IndexOfId(ps, id).None?
    ensures r.status != 404 ==> r.status == 200 && r.body == RecordBody(ps[IndexOfId(ps, id).value])
  {
    match IndexOfId(ps, id)
    case None => Reply(404, ErrorBody("Product not found"), None)
    case Some(i) => Reply(200, RecordBody(ps[i]), None)
  }

  /** A request to one of the five routes. */
  datatype Request = GetAll | Post(body: Record) | Put(id: string, body: Record) | Delete(id: string) | GetOne(id: string)

  /** The route's handler once the list has been read. */
  function OnList(ps: seq<Record>, req: Request): Reply
  {
    match req
    case GetAll => GetAllOn(ps)
    case Post(body) => PostOn(ps, body)
    case Put(id, body) => PutOn(ps, id, body)
    case Delete(id) => DeleteOn(ps, id)
    case GetOne(id) => GetOneOn(ps, id)
  }

  /** POST with a body that fails the field check, which needs no read. */
  predicate RefusedPost(req: Request) {
    req.Post? && PostOn([], req.body).status == 400
  }

  /** A request against the file: the read, the handler, then the awaited
      write; `None` when the read or the write threw and no reply is sent.
      `writeOk` says whether `writeProducts` succeeds. The POST field check
      comes before the read, so a bad body gets its 400 even when the file
      cannot be read. */
  function Handle(file: FileState, parse: string -> Option<seq<Record>>, writeOk: bool, req: Request): (r: Option<Reply>)
    ensures RefusedPost(req) ==> r == Some(PostOn([], req.body))
    ensures r.None? <==>
      && !RefusedPost(req)
      && (ReadProducts(file, parse).Failure? || (OnList(ReadProducts(file, parse).value, req).written.Some? && !writeOk))
    ensures r.Some? && !RefusedPost(req) ==> ReadProducts(file, parse).Success? && r.value == OnList(ReadProducts(file, parse).value, req)
  {
    if RefusedPost(req) then Some(PostOn([], req.body))
    else
      match ReadProducts(file, parse)
      case Failure(_) => None
      case Success(ps) =>
        var reply := OnList(ps, req);
        if reply.written.Some? && !writeOk then None else Some(reply)
  }

  /** The two GET routes never write, so a failing write cannot affect them. */
  lemma ReadsIgnoreWrite(file: FileState, parse: string -> Option<seq<Record>>, id: string)
    ensures Handle(file, parse, false, GetAll) == Handle(file, parse, true, GetAll)
    ensures Handle(file, parse, false, GetOne(id)) == Handle(file, parse, true, GetOne(id))
  {
  }

  /** A missing file serves as an empty list: GET finds nothing and a valid
      POST whose write succeeds creates the list with that one record. */
  lemma MissingFileIsEmpty(parse: string -> Option<seq<Record>>, writeOk: bool, body: Record, id: string)
    ensures Handle(Missing, parse, writeOk, GetAll) == Some(Reply(200, ListBody([]), None))
    ensures Handle(Missing, parse, writeOk, GetOne(id)) == Some(Reply(404, ErrorBody("Product not found"), None))
    ensures Present(body, "id") && Present(body, "name") && Present(body, "category") ==>
      Handle(Missing, parse, writeOk, Post(body)) == if writeOk then Some(Reply(201, SuccessBody([body]), Some([body]))) else None
  {
    assert [] + [body] == [body];
  }

  /** POST does not check ids: posting a record whose id is taken leaves two
      records with that id, and GET by id still finds the older one. */
  lemma PostDuplicateId(ps: seq<Record>, body: Record, id: string)
    requires HasId(body, id) && IndexOfId(ps, id).Some?
    requires Present(body, "id") && Present(body, "name") && Present(body, "category")
    ensures var w := PostOn(ps, body).written.value;
      |w| == |ps| + 1 && HasId(w[|w| - 1], id) && GetOneOn(w, id) == GetOneOn(ps, id)
  {
    var w := ps + [body];
    assert PostOn(ps, body).written == Some(w);
    var i := IndexOfId(ps, id).value;
    assert w[i] == ps[i];
    assert forall j :: 0 <= j < i ==> w[j] == ps[j];
    assert IndexOfId(w, id) == Some(i);
  }

  /** After a PUT whose body keeps the id (or brings none), GET by that id
      returns the merged record. */
  lemma PutThenGet(ps: seq<Record>, id: string, body: Record)
    requires IndexOfId(ps, id).Some?
    requires "id" !in body || body["id"] == Str(id)
    ensures var w := PutOn(ps, id, body).written.value; var i := IndexOfId(ps, id).value;
      GetOneOn(w, id) == Reply(200, RecordBody(Merge(ps[i], body)), None)
  {
    var i := IndexOfId(ps, id).value;
    var w := PutOn(ps, id, body).written.value;
    MergeKeepsId(ps[i], body, id);
    assert HasId(w[i], id);
    assert forall j :: 0 <= j < i ==> w[j] == ps[j];
    assert IndexOfId(w, id) == Some(i);
  }

  /** After a DELETE no record has the id, and deleting an absent id rewrites
      the list unchanged. */
  lemma DeleteThenGet(ps: seq<Record>, id: string)
    ensures GetOneOn(DeleteOn(ps, id).written.value, id).status == 404
    ensures IndexOfId(ps, id).None? ==> DeleteOn(ps, id).written == Some(ps)
  {
    if IndexOfId(ps, id).None? {
      WithoutAbsentId(ps, id);
    }
  }
}

=== FILE: model.dfy ===
/** The product record shared by the catalogue page, the local product store,
    the static catalogue API and the admin dashboard. The optional fields are
    the ones the source declares with `?` or reads with `??`. */
module Model {
  import opened Wrappers

  datatype Product = Product(
    id: string,
    name: string,
    category: string,
    image: string,
    description: Option<string>,
    inStock: Option<bool>)
}

=== FILE: ordering.dfy ===
/** A fixed total order on strings and a sort by it. The source sorts
    category names with `localeCompare`, whose order depends on the locale;
    the model uses lexicographic order on character codes instead. */
module Ordering {

  /** `a` sorts before or equal to `b`, comparing character codes left to right. */
  predicate LexLeq(a: string, b: string) {
    |a| == 0 || (|b| > 0 && (a[0] < b[0] || (a[0] == b[0] && LexLeq(a[1..], b[1..]))))
  }

  lemma {:induction false} LexTotal(a: string, b: string)
    ensures LexLeq(a, b) || LexLeq(b, a)
    decreases |a|
  {
    if |a| > 0 && |b| > 0 && a[0] == b[0] {
      LexTotal(a[1..], b[1..]);
    }
  }

  lemma {:induction false} LexAntisymmetric(a: string, b: string)
    requires LexLeq(a, b) && LexLeq(b, a)
    ensures a == b
    decreases |a|
  {
    if |a| > 0 {
      LexAntisymmetric(a[1..], b[1..]);
      assert a == [a[0]] + a[1..] && b == [b[0]] + b[1..];
    }
  }

  lemma {:induction false} LexTransitive(a: string, b: string, c: string)
    requires LexLeq(a, b) && LexLeq(b, c)
    ensures LexLeq(a, c)
    decreases |a|
  {
    if |a| > 0 && a[0] == b[0] && b[0] == c[0] {
      LexTransitive(a[1..], b[1..], c[1..]);
    }
  }

  /** Each element sorts before or equal to the next. */
  predicate Sorted(s: seq<string>) {
    forall i :: 0 < i < |s| ==> LexLeq(s[i - 1], s[i])
  }

  /** Inserts `x` into a sorted list before the first element it sorts before. */
  function Insert(x: string, s: seq<string>): (r: seq<string>)
    requires Sorted(s)
    ensures Sorted(r)
    ensures multiset(r) == multiset(s) + multiset{x}
    ensures |r| > 0 && (r[0] == x || (|s| > 0 && r[0] == s[0]))
  {
    if |s| == 0 then [x]
    else if LexLeq(x, s[0]) then [x] + s
    else
      LexTotal(x, s[0]);
      var rest := Insert(x, s[1..]);
      assert s == [s[0]] + s[1..];
      [s[0]] + rest
  }

  /** Sorting: a sorted permutation of `s` (insertion sort). */
  function Sort(s: seq<string>): (r: seq<string>)
    ensures Sorted(r)
    ensures multiset(r) == multiset(s)
  {
    if |s| == 0 then []
    else
      assert s == [s[0]] + s[1..];
      Insert(s[0], Sort(s[1..]))
  }

  /** The head of a sorted list sorts before or equal to every element. */
  lemma {:induction false} SortedHeadLeast(s: seq<string>, x: string)
    requires Sorted(s) && x in s
    ensures LexLeq(s[0], x)
    decreases |s|
  {
    if s[0] == x {
      LexReflexive(x);
    } else {
      assert x in s[1..];
      SortedHeadLeast(s[1..], x);
      LexTransitive(s[0], s[1], x);
    }
  }

  lemma {:induction false} LexReflexive(a: string)
    ensures LexLeq(a, a)
    decreases |a|
  {
    if |a| > 0 {
      LexReflexive(a[1..]);
    }
  }

  /** A sorted permutation is unique, so any sorting algorithm that uses this
      order gives the same list as `Sort`. */
  lemma {:induction false} SortedUnique(a: seq<string>, b: seq<string>)
    requires Sorted(a) && Sorted(b) && multiset(a) == multiset(b)
    ensures a == b
    decreases |a|
  {
    if |a| > 0 {
      SameHead(a, b);
      SortedTail(a);
      SortedTail(b);
      SameTails(a, b);
      SortedUnique(a[1..], b[1..]);
      assert a == [a[0]] + a[1..] && b == [b[0]] + b[1..];
    }
  }

  /** Two sorted permutations of a non-empty list start with the same element. */
  lemma SameHead(a: seq<string>, b: seq<string>)
    requires Sorted(a) && Sorted(b) && multiset(a) == multiset(b) && |a| > 0
    ensures |b| > 0 && a[0] == b[0]
  {
    assert |multiset(a)| == |a| && |multiset(b)| == |b|;
    assert a[0] in multiset(b) && b[0] in multiset(a);
    SortedHeadLeast(a, b[0]);
    SortedHeadLeast(b, a[0]);
    LexAntisymmetric(a[0], b[0]);
  }

  lemma SortedTail(s: seq<string>)
    requires Sorted(s) && |s| > 0
    ensures Sorted(s[1..])
  {
    var t := s[1..];
    forall i | 0 < i < |t| ensures LexLeq(t[i - 1], t[i]) {
      assert t[i - 1] == s[i] && t[i] == s[i + 1];
    }
  }

  /** Permutations with the same head have permuted tails. */
  lemma SameTails<T>(a: seq<T>, b: seq<T>)
    requires |a| > 0 && |b| > 0 && a[0] == b[0] && multiset(a) == multiset(b)
    ensures multiset(a[1..]) == multiset(b[1..])
  {
    assert a == [a[0]] + a[1..] && b == [b[0]] + b[1..];
    assert multiset(a) == multiset{a[0]} + multiset(a[1..]);
    assert multiset(b) == multiset{b[0]} + multiset(b[1..]);
    assert multiset(a[1..]) == multiset(a) - multiset{a[0]};
    assert multiset(b[1..]) == multiset(b) - multiset{b[0]};
  }

  /** Sorting a list that is already sorted leaves it unchanged. */
  lemma SortSorted(s: seq<string>)
    requires Sorted(s)
    ensures Sort(s) == s
  {
    SortedUnique(Sort(s), s);
  }
}

=== FILE: product_store.dfy ===
/** The product list as the shop front keeps it (src/hooks/useProducts.ts) and
    the static catalogue API (src/api/products.ts): the browser-storage slot
    with its seed-data fallback, the three list edits, category derivation and
    the two lookups. The storage slot is a value of type `Option<string>`;
    `JSON.stringify` and `JSON.parse` are parameters. */
module ProductStore {
  import opened Wrappers
  import opened Seqs
  import opened Text
  import opened Model
  import CategoryNames
  import Catalog

  // ---------------------------------------------------------------- the list edits

  function Ids(ps: seq<Product>): (r: seq<string>)
    ensures |r| == |ps| && forall i :: 0 <= i < |ps| ==> r[i] == ps[i].id
  {
    seq(|ps|, i requires 0 <= i < |ps| => ps[i].id)
  }

  predicate HasId(p: Product, id: string) { p.id == id }

  /** `addProduct`: the new product goes last, whatever its id. */
  function AddProduct(ps: seq<Product>, p: Product): (r: seq<Product>)
    ensures |r| == |ps| + 1 && r[..|ps|] == ps && r[|ps|] == p
  {
    ps + [p]
  }

  /** `updateProduct`: every product carrying the new product's id is replaced. */
  function UpdateProduct(ps: seq<Product>, u: Product): (r: seq<Product>)
    ensures |r| == |ps|
    ensures forall i :: 0 <= i < |ps| && ps[i].id != u.id ==> r[i] == ps[i]
    ensures forall i :: 0 <= i < |ps| && ps[i].id == u.id ==> r[i] == u
  {
    seq(|ps|, i requires 0 <= i < |ps| => if ps[i].id == u.id then u else ps[i])
  }

  /** `deleteProduct`: the products without that id, in their order. */
  function DeleteProduct(ps: seq<Product>, id: string): (r: seq<Product>)
    ensures IsSubseq(r, ps)
    ensures id !in Ids(r)
    ensures forall q :: multiset(r)[q] == if q.id != id then multiset(ps)[q] else 0
  {
    Filter(ps, (p: Product) => p.id != id)
  }

  /** `fetchProductById` (and `find` by id generally): the first product with
      that id, `None` standing for `null`. */
  function FetchProductById(ps: seq<Product>, id: string): (r: Option<Product>)
    ensures r.Some? <==> id in Ids(ps)
    ensures r.Some? ==> r.value.id == id && r.value == ps[FirstIndex(Ids(ps), id)]
  {
    var found := Find(ps, p => HasId(p, id));
    var i := FindIndex(ps, p => HasId(p, id));
    if i.Some? then
      assert Ids(ps)[i.value] == id;
      assert id !in Ids(ps)[..i.value];
      found
    else
      assert forall k :: 0 <= k < |ps| ==> Ids(ps)[k] != id;
      found
  }

  /** Appending a product with a new id makes it the one found by that id;
      other lookups are unaffected. */
  lemma AddThenFetch(ps: seq<Product>, p: Product, id: string)
    ensures FetchProductById(AddProduct(ps, p), id) ==
      if id in Ids(ps) then FetchProductById(ps, id) else if p.id == id then Some(p) else None
  {
    FindAppend(ps, p, q => HasId(q, id));
  }

  /** After an update the id finds the new product exactly when it was there
      before, and every other id finds what it found before. */
  lemma UpdateThenFetch(ps: seq<Product>, u: Product, id: string)
    ensures FetchProductById(UpdateProduct(ps, u), id) ==
      if id != u.id then FetchProductById(ps, id)
      else if id in Ids(ps) then Some(u) else None
  {
    var r := UpdateProduct(ps, u);
    if id != u.id {
      FindSameMask(ps, r, q => HasId(q, id));
    } else {
      assert Ids(r) == Ids(ps);
    }
  }

  /** An update keeps every id in its place, and a second identical update
      changes nothing. */
  lemma UpdateKeepsIds(ps: seq<Product>, u: Product)
    ensures Ids(UpdateProduct(ps, u)) == Ids(ps)
    ensures UpdateProduct(UpdateProduct(ps, u), u) == UpdateProduct(ps, u)
  {
  }

  /** After a delete the id finds nothing and every other id finds what it
      found before. */
  lemma DeleteThenFetch(ps: seq<Product>, id: string, other: string)
    ensures FetchProductById(DeleteProduct(ps, id), id).None?
    ensures other != id ==> FetchProductById(DeleteProduct(ps, id), other) == FetchProductById(ps, other)
  {
    if other != id {
      FindFilter(ps, (p: Product) => p.id != id, q => HasId(q, other));
    }
  }

  /** Deleting the id of a product just added with a fresh id restores the list. */
  lemma {:induction false} DeleteUndoesAdd(ps: seq<Product>, p: Product)
    requires p.id !in Ids(ps)
    ensures DeleteProduct(AddProduct(ps, p), p.id) == ps
  {
    var keep := (q: Product) => q.id != p.id;
    assert forall i :: 0 <= i < |ps| ==> keep(ps[i]) by {
      forall i | 0 <= i < |ps| ensures keep(ps[i]) {
        assert Ids(ps)[i] == ps[i].id;
      }
    }
    FilterDropsLast(ps, p, keep);
  }

  // ---------------------------------------------------------------- the storage slot

  /** What a read of the storage slot gives: the products, and the slot after
      the read (which may have been written). */
  datatype StoredRead = StoredRead(products: seq<Product>, slot: Option<string>)

  /** `getStoredProducts`. Without a window the seed data is returned. A slot
      holding a non-empty string is parsed, and a parse failure falls back to
      the seed data without touching the slot. A missing or empty slot is
      filled with the encoded seed data. */
  function GetStoredProducts(hasWindow: bool, slot: Option<string>, seed: seq<Product>,
                             parse: string -> Option<seq<Product>>, encode: seq<Product> -> string): (r: StoredRead)
    ensures r.products == seed || (hasWindow && slot.Some? && parse(slot.value) == Some(r.products))
    ensures r.slot != slot ==> hasWindow && (slot.None? || slot.value == "") && r.slot == Some(encode(seed))
    ensures !hasWindow ==> r.products == seed && r.slot == slot
    ensures hasWindow && slot.Some? && slot.value != "" && parse(slot.value).Some? ==> r.products == parse(slot.value).value
    ensures hasWindow && slot.Some? && slot.value != "" && parse(slot.value).None? ==> r.products == seed
    ensures hasWindow && (slot.None? || slot.value == "") ==> r.products == seed && r.slot == Some(encode(seed))
  {
    if !hasWindow then StoredRead(seed, slot)
    else if slot.Some? && slot.value != "" then
      match parse(slot.value)
      case Some(ps) => StoredRead(ps, slot)
      case None => StoredRead(seed, slot)
    else StoredRead(seed, Some(encode(seed)))
  }

  /** `saveProductsToStorage`: the slot after a write (none without a window). */
  function SaveProducts(hasWindow: bool, slot: Option<string>, ps: seq<Product>, encode: seq<Product> -> string): (r: Option<string>)
    ensures hasWindow ==> r.Some?
    ensures !hasWindow ==> r == slot
  {
    if hasWindow then Some(encode(ps)) else slot
  }

  /** The seed fallback: an unparseable or missing slot reads as the seed data. */
  lemma FallbackToSeed(hasWindow: bool, slot: Option<string>, seed: seq<Product>,
                       parse: string -> Option<seq<Product>>, encode: seq<Product> -> string)
    requires slot.None? || parse(slot.value).None? || slot.value == ""
    ensures GetStoredProducts(hasWindow, slot, seed, parse, encode).products == seed
  {
  }

  /** A read is stable: reading the slot a read left behind gives the same
      products and writes nothing, provided the encoding of the seed is
      non-empty and parses back. */
  lemma ReadTwice(hasWindow: bool, slot: Option<string>, seed: seq<Product>,
                  parse: string -> Option<seq<Product>>, encode: seq<Product> -> string)
    requires encode(seed) != "" && parse(encode(seed)) == Some(seed)
    ensures var r1 := GetStoredProducts(hasWindow, slot, seed, parse, encode);
      GetStoredProducts(hasWindow, r1.slot, seed, parse, encode) == r1
  {
  }

  /** An edit that was saved is what the next read returns, provided the
      encoding of the edited list is non-empty and parses back. */
  lemma SavedEditSurvivesReload(slot: Option<string>, ps: seq<Product>, seed: seq<Product>,
                                parse: string -> Option<seq<Product>>, encode: seq<Product> -> string)
    requires encode(ps) != "" && parse(encode(ps)) == Some(ps)
    ensures var slot' := SaveProducts(true, slot, ps, encode);
      GetStoredProducts(true, slot', seed, parse, encode) == StoredRead(ps, slot')
  {
  }

  // ---------------------------------------------------------------- categories

  datatype Category = Category(id: string, name: string, slug: string, image: string, description: string)

  function CategoryValues(ps: seq<Product>): (r: seq<string>)
    ensures |r| == |ps| && forall i :: 0 <= i < |ps| ==> r[i] == ps[i].category
  {
    seq(|ps|, i requires 0 <= i < |ps| => ps[i].category)
  }

  function CategorySlugs(cs: seq<Category>): seq<string>
  {
    seq(|cs|, i requires 0 <= i < |cs| => cs[i].slug)
  }

  /** The category derivation shared by src/hooks/useProducts.ts and
      src/api/products.ts: one category per distinct `category` value, in order
      of first appearance, numbered from "1", pictured by the first product
      of that category, and described as "<name> products". Only the display
      name rule `nameOf` differs between the two files. */
  function DeriveCategories(ps: seq<Product>, nameOf: string -> string): (r: seq<Category>)
    ensures CategorySlugs(r) == Distinct(CategoryValues(ps))
    ensures forall i :: 0 <= i < |r| ==>
      && r[i].id == NatToString(i + 1)
      && r[i].name == nameOf(r[i].slug)
      && r[i].description == r[i].name + " products"
      && r[i].slug in CategoryValues(ps)
      && r[i].image == ps[FirstIndex(CategoryValues(ps), r[i].slug)].image
  {
    var values := CategoryValues(ps);
    var slugs := Distinct(values);
    seq(|slugs|, i requires 0 <= i < |slugs| => NumberedCategory(i, slugs[i], ps[FirstIndex(values, slugs[i])].image, nameOf))
  }

  /** The `i`-th derived category (counting from 0) for a slug and an image. */
  function NumberedCategory(i: nat, slug: string, image: string, nameOf: string -> string): Category
  {
    Category(NatToString(i + 1), nameOf(slug), slug, image, nameOf(slug) + " products")
  }

  /** src/hooks/useProducts.ts: names by `formatCategoryName`. */
  function HookCategories(ps: seq<Product>): (r: seq<Category>)
    ensures CategorySlugs(r) == Distinct(CategoryValues(ps))
    ensures forall i :: 0 <= i < |r| ==> r[i].name == CategoryNames.FormatCategoryName(r[i].slug) && '-' !in r[i].name
  {
    DeriveCategories(ps, CategoryNames.FormatCategoryName)
  }

  /** src/api/products.ts: names by replacing `-` with a space. */
  function ApiCategories(ps: seq<Product>): (r: seq<Category>)
    ensures CategorySlugs(r) == Distinct(CategoryValues(ps))
    ensures forall i :: 0 <= i < |r| ==> r[i].name == CategoryNames.SpaceName(r[i].slug) && '-' !in r[i].name
  {
    DeriveCategories(ps, CategoryNames.SpaceName)
  }

  /** The derived categories list every category value exactly once, in order
      of first appearance, with pairwise different ids, and the image of a
      product of that category that no earlier product shares. */
  lemma DerivedCategoriesFacts(ps: seq<Product>, nameOf: string -> string, i: int, j: int)
    requires 0 <= i < j < |DeriveCategories(ps, nameOf)|
    ensures var r := DeriveCategories(ps, nameOf);
      && r[i].slug != r[j].slug
      && r[i].id != r[j].id
      && FirstIndex(CategoryValues(ps), r[i].slug) < FirstIndex(CategoryValues(ps), r[j].slug)
  {
    var r := DeriveCategories(ps, nameOf);
    assert CategorySlugs(r)[i] == r[i].slug && CategorySlugs(r)[j] == r[j].slug;
    DistinctFirstAppearance(CategoryValues(ps), i, j);
    if r[i].id == r[j].id {
      NatToStringInjective(i + 1, j + 1);
    }
  }

  /** Every category value of the list has a derived category. */
  lemma EveryCategoryDerived(ps: seq<Product>, nameOf: string -> string, k: int)
    requires 0 <= k < |ps|
    ensures ps[k].category in CategorySlugs(DeriveCategories(ps, nameOf))
  {
    assert CategoryValues(ps)[k] == ps[k].category;
  }

  /** The two files derive the same categories apart from the display name:
      same ids, slugs and images, in the same order. */
  lemma HookAndApiAgree(ps: seq<Product>)
    ensures |HookCategories(ps)| == |ApiCategories(ps)|
    ensures forall i :: 0 <= i < |HookCategories(ps)| ==>
      var h, a := HookCategories(ps)[i], ApiCategories(ps)[i];
      h.id == a.id && h.slug == a.slug && h.image == a.image
  {
    var h, a := HookCategories(ps), ApiCategories(ps);
    assert |CategorySlugs(h)| == |CategorySlugs(a)|;
    forall i | 0 <= i < |h| ensures h[i].slug == a[i].slug {
      assert CategorySlugs(h)[i] == CategorySlugs(a)[i];
    }
  }

  /** `fetchProductsByCategory`: exactly the products of that category, in order. */
  function FetchProductsByCategory(ps: seq<Product>, slug: string): (r: seq<Product>)
    ensures IsSubseq(r, ps)
    ensures forall i :: 0 <= i < |r| ==> r[i].category == slug
    ensures forall q :: multiset(r)[q] == if q.category == slug then multiset(ps)[q] else 0
  {
    KeyFilter(ps, (p: Product) => p.category, slug)
  }

  /** Fetching the products of each derived category covers the list once:
      the sizes add up to the number of products, and no category is empty. */
  lemma FetchByCategoryPartition(ps: seq<Product>, nameOf: string -> string)
    ensures SumKeyCounts(CategorySlugs(DeriveCategories(ps, nameOf)), ps, (p: Product) => p.category) == |ps|
    ensures forall c :: c in DeriveCategories(ps, nameOf) ==> |FetchProductsByCategory(ps, c.slug)| > 0
  {
    var slugs := CategorySlugs(DeriveCategories(ps, nameOf));
    forall i | 0 <= i < |ps| ensures ps[i].category in slugs {
      EveryCategoryDerived(ps, nameOf, i);
    }
    PartitionSize(slugs, ps, (p: Product) => p.category);
    forall c | c in DeriveCategories(ps, nameOf) ensures |FetchProductsByCategory(ps, c.slug)| > 0 {
      var k := FirstIndex(CategoryValues(ps), c.slug);
      var q := ps[k];
      assert multiset(ps)[q] > 0;
      assert multiset(FetchProductsByCategory(ps, c.slug))[q] > 0;
    }
  }

  /** On a well-formed slug both display names lead back to it through the
      catalogue page's slug rule, and the API's name also by turning its
      spaces back into `-`. */
  lemma DisplayNamesRecoverSlug(ws: seq<string>)
    requires |ws| > 0
    requires forall k :: 0 <= k < |ws| ==> Catalog.IsSlugWord(ws[k])
    ensures var slug := Join(ws, "-");
      && Catalog.Slugify(CategoryNames.FormatCategoryName(slug)) == slug
      && Catalog.Slugify(CategoryNames.SpaceName(slug)) == slug
      && ReplaceChar(CategoryNames.SpaceName(slug), ' ', '-') == slug
  {
    var slug := Join(ws, "-");
    assert forall k :: 0 <= k < |ws| ==> '-' !in ws[k] && ' ' !in ws[k] by {
      forall k | 0 <= k < |ws| ensures '-' !in ws[k] && ' ' !in ws[k] {
        assert forall i :: 0 <= i < |ws[k]| ==> Catalog.IsSlugChar(ws[k][i]);
      }
    }
    CategoryNames.SlugOfDisplayName(ws);
    JoinNoSpace(ws);
    CategoryNames.SpaceNameInverse(slug);
    SpaceNameSlug(ws);
  }

  /** The API's name of a slug is its words joined by spaces, which the slug
      rule turns back into the slug. */
  lemma SpaceNameSlug(ws: seq<string>)
    requires forall k :: 0 <= k < |ws| ==> Catalog.IsSlugWord(ws[k])
    requires forall k :: 0 <= k < |ws| ==> '-' !in ws[k]
    ensures Catalog.Slugify(CategoryNames.SpaceName(Join(ws, "-"))) == Join(ws, "-")
  {
    ReplaceJoin(ws, '-', ' ');
    assert CategoryNames.SpaceName(Join(ws, "-")) == Join(ws, " ");
    JoinKeeps(ws, " ", c => !IsAsciiUpper(c));
    LowerNoCapitals(Join(ws, " "));
    Catalog.CollapseJoin(ws, " ");
  }

  lemma {:induction false} JoinNoSpace(ws: seq<string>)
    requires forall k :: 0 <= k < |ws| ==> ' ' !in ws[k]
    ensures ' ' !in Join(ws, "-")
    decreases |ws|
  {
    if |ws| > 1 {
      JoinNoSpace(ws[1..]);
    }
  }
}

=== FILE: quote_cart.dfy ===
/** The quote-request flow: the cart of product names kept in browser storage
    (src/pages/Products.tsx `addToCart`, `handleRequestQuote`) and the contact
    page that folds a pending product into the cart, appends an
    "Interested in" block to the message, strips it again on "clear", and
    resets the form after a successful send (src/pages/Contact.tsx).
    Browser storage is an explicit value: each slot is `None` when the key is
    absent; the JSON text in the slots is represented by its parsed value. */
module QuoteCart {
  import opened Wrappers
  import opened Seqs
  import opened Text

  /** The contact form's fields. */
  datatype Form = Form(name: string, email: string, message: string)

  const EmptyForm := Form("", "", "")

  /** The three storage keys of the flow: "cartProducts", "contactProduct"
      and "contactFormData". */
  datatype Storage = Storage(cart: Option<seq<string>>, contactProduct: Option<string>, savedForm: Option<Form>)

  /** `JSON.parse(localStorage.getItem("cartProducts") || "[]")`. */
  function StoredCart(st: Storage): seq<string>
  {
    st.cart.GetOr([])
  }

  // ---------------------------------------------------------------- adding

  datatype AddOutcome = AddOutcome(added: bool, storage: Storage)

  /** `addToCart`: append the name when it is not
      yet in the cart and report whether it was added. */
  function AddToCart(st: Storage, name: string): (r: AddOutcome)
    ensures r.added <==> name !in StoredCart(st)
    ensures r.added ==> StoredCart(r.storage) == StoredCart(st) + [name]
    ensures r.added ==> r.storage.contactProduct == st.contactProduct && r.storage.savedForm == st.savedForm
    ensures !r.added ==> r.storage == st
    ensures name in StoredCart(r.storage)
  {
    var cart := StoredCart(st);
    if name !in cart then AddOutcome(true, st.(cart := Some(cart + [name])))
    else AddOutcome(false, st)
  }

  /** Adding keeps the cart free of duplicates. */
  lemma AddKeepsNoDup(st: Storage, name: string)
    requires NoDup(StoredCart(st))
    ensures NoDup(StoredCart(AddToCart(st, name).storage))
  {
  }

  /** Adding the same name twice reports "added" and then "already in cart",
      and the name is in the cart once. */
  lemma AddTwice(st: Storage, name: string)
    requires NoDup(StoredCart(st)) && name !in StoredCart(st)
    ensures var first := AddToCart(st, name);
      var second := AddToCart(first.storage, name);
      first.added && !second.added && second.storage == first.storage
        && Occurrences(StoredCart(second.storage), name) == 1
  {
    var first := AddToCart(st, name);
    OccurrencesNoDup(StoredCart(first.storage), name);
  }

  /** `handleRequestQuote`: remember the product as
      the pending one, then add it to the cart. */
  function RequestQuote(st: Storage, name: string): (r: AddOutcome)
    ensures r.storage.contactProduct == Some(name)
    ensures r.added <==> name !in StoredCart(st)
    ensures StoredCart(r.storage) == if r.added then StoredCart(st) + [name] else StoredCart(st)
    ensures r.storage.savedForm == st.savedForm
  {
    AddToCart(st.(contactProduct := Some(name)), name)
  }

  // ---------------------------------------------------------------- the message block

  /** The text every appended block starts with; `clearCart` cuts at it. */
  const Marker := "\n\nInterested in:"

  /** The cart summary, with its separate
      one-item branch. */
  function Summary(cart: seq<string>): (r: string)
    ensures r == Marker + " " + Join(cart, ", ")
  {
    if |cart| == 1 then "\n\nInterested in: " + cart[0]
    else "\n\nInterested in: " + Join(cart, ", ")
  }

  /** The message update on the contact page: nothing for an empty
      cart, otherwise the summary after the message; an empty message takes
      its own branch. */
  function AppendSummary(message: string, cart: seq<string>): (r: string)
    ensures |cart| == 0 ==> r == message
    ensures |cart| > 0 ==> r == message + Summary(cart)
  {
    if |cart| > 0 then
      (if message != "" then message + Summary(cart) else Summary(cart))
    else message
  }

  /** `message.replace(/\n\nInterested in:.*$/s, "")`:
      the regular expression's leftmost match starts at the first marker and
      runs to the end, so the result is everything before the first marker. */
  function StripSummary(message: string): (r: string)
    ensures Contains(message, Marker) ==> r == message[..IndexOf(message, Marker).value]
    ensures !Contains(message, Marker) ==> r == message
  {
    match IndexOf(message, Marker)
    case Some(i) => message[..i]
    case None => message
  }

  /** What `StripSummary` leaves contains no marker. */
  lemma StripLeavesNoMarker(message: string)
    ensures !Contains(StripSummary(message), Marker)
  {
    var r := StripSummary(message);
    if Contains(message, Marker) {
      var i := IndexOf(message, Marker).value;
      if Contains(r, Marker) {
        var j :| 0 <= j <= |r| && OccursAt(r, Marker, j);
        assert message[j..j + |Marker|] == r[j..j + |Marker|];
        assert OccursAt(message, Marker, j);
        assert false;
      }
    }
  }

  /** Stripping twice is stripping once. */
  lemma StripIdempotent(message: string)
    ensures StripSummary(StripSummary(message)) == StripSummary(message)
  {
    StripLeavesNoMarker(message);
  }

  /** A marker-free message followed by a block, and anything after it, strips
      back to the message: one strip removes every block appended since. */
  lemma StripAfterBlock(prev: string, cart: seq<string>, more: string)
    requires !Contains(prev, Marker)
    ensures StripSummary(prev + Summary(cart) + more) == prev
  {
    var tail := Summary(cart) + more;
    assert prev + Summary(cart) + more == prev + tail;
    FirstMarkerAt(prev, tail);
    assert (prev + tail)[..|prev|] == prev;
  }

  /** In a marker-free text followed by a marker, the first marker is that one. */
  lemma FirstMarkerAt(prev: string, tail: string)
    requires !Contains(prev, Marker)
    requires |Marker| <= |tail| && tail[..|Marker|] == Marker
    ensures IndexOf(prev + tail, Marker) == Some(|prev|)
  {
    var s := prev + tail;
    var n := |prev|;
    assert s[n..n + |Marker|] == tail[..|Marker|];
    assert OccursAt(s, Marker, n);
    forall j | 0 <= j < n ensures !OccursAt(s, Marker, j) {
      EarlierNotMarker(prev, tail, j);
    }
  }

  lemma EarlierNotMarker(prev: string, tail: string, j: int)
    requires !Contains(prev, Marker)
    requires |Marker| <= |tail| && tail[..|Marker|] == Marker
    requires 0 <= j < |prev|
    ensures !OccursAt(prev + tail, Marker, j)
  {
    var s := prev + tail;
    var n := |prev|;
    if j + |Marker| <= n {
      assert s[j..j + |Marker|] == prev[j..j + |Marker|];
      assert !OccursAt(prev, Marker, j);
    } else {
      assert s[n] == '\n' && s[n + 1] == '\n';
      NoSelfOverlap(s, j, n);
    }
  }

  /** The marker cannot start inside the text right before "\n\n": its only
      newlines are its first two characters. */
  lemma NoSelfOverlap(s: string, j: int, n: int)
    requires 0 <= j < n && n < j + |Marker| && n + 1 < |s|
    requires s[n] == '\n' && s[n + 1] == '\n'
    ensures !OccursAt(s, Marker, j)
  {
    if j + |Marker| <= |s| {
      var k := n - j;
      var w := s[j..j + |Marker|];
      if k == 1 {
        assert w[2] == s[n + 1] == '\n' != Marker[2];
      } else {
        assert w[k] == s[n] == '\n';
        assert Marker[k] != '\n' by {
          assert Marker == ['\n', '\n', 'I', 'n', 't', 'e', 'r', 'e', 's', 't', 'e', 'd', ' ', 'i', 'n', ':'];
        }
      }
    }
  }

  /** Two blocks in a row are both removed. */
  lemma StripRepeatedBlocks(prev: string, c1: seq<string>, c2: seq<string>)
    requires !Contains(prev, Marker)
    ensures StripSummary(prev + Summary(c1) + Summary(c2)) == prev
  {
    StripAfterBlock(prev, c1, Summary(c2));
  }

  // ---------------------------------------------------------------- the contact page

  /** The contact page: the form held in component state, and storage. */
  datatype Page = Page(form: Form, storage: Storage)

  /** The first effect, run on mount and after every
      change of the form: save the form. */
  function PersistForm(page: Page): (r: Page)
    ensures r.form == page.form && r.storage.savedForm == Some(page.form)
    ensures r.storage.cart == page.storage.cart && r.storage.contactProduct == page.storage.contactProduct
  {
    page.(storage := page.storage.(savedForm := Some(page.form)))
  }

  /** The pending product: a non-empty one joins the cart if it is not
      there yet and is then forgotten; an absent or empty one
      changes nothing. */
  function FoldInPending(st: Storage): (r: Storage)
    ensures st.contactProduct.Some? && st.contactProduct.value != "" ==>
      && r.contactProduct.None?
      && st.contactProduct.value in StoredCart(r)
      && StoredCart(r) == (if st.contactProduct.value in StoredCart(st) then StoredCart(st) else StoredCart(st) + [st.contactProduct.value])
    ensures !(st.contactProduct.Some? && st.contactProduct.value != "") ==> r == st
    ensures r.savedForm == st.savedForm
  {
    match st.contactProduct
    case Some(p) =>
      if p != "" then
        var cart := StoredCart(st);
        var current := if p in cart then cart else cart + [p];
        st.(cart := Some(current), contactProduct := None)
      else st
    case None => st
  }

  /** The second effect: restore the saved form,
      fold the pending product into the cart, then append the summary of a
      non-empty cart to the message. */
  function LoadAndAppend(page: Page): (r: Page)
    ensures r.storage == FoldInPending(page.storage)
    ensures var restored := page.storage.savedForm.GetOr(page.form);
      r.form == restored.(message := AppendSummary(restored.message, StoredCart(r.storage)))
  {
    var restored := page.storage.savedForm.GetOr(page.form);
    var st := FoldInPending(page.storage);
    var cart := StoredCart(st);
    var message :=
      if |cart| > 0 then
        (if restored.message != "" then restored.message + Summary(cart) else Summary(cart))
      else restored.message;
    Page(restored.(message := message), st)
  }

  /** Mounting as written: React runs the two effects in declaration order, so
      the persist effect first overwrites the saved form with the empty
      initial form, the load effect then restores that, and the changed form
      is saved again. */
  function MountAsWritten(st: Storage): (r: Page)
    ensures r.storage.cart == FoldInPending(st).cart
    ensures r.form == EmptyForm.(message := AppendSummary("", StoredCart(FoldInPending(st))))
    ensures r.storage.savedForm == Some(r.form)
  {
    PersistForm(LoadAndAppend(PersistForm(Page(EmptyForm, st))))
  }

  /** As written, a saved draft never survives a visit to the page: a draft
      "hello" with an empty cart comes back as the empty message. */
  lemma MountAsWrittenDropsDraft()
    ensures var st := Storage(None, None, Some(Form("Ann", "ann@example.com", "hello")));
      MountAsWritten(st).form == EmptyForm
  {
  }

  /** Mounting as evidently intended: restore the saved form first, then
      append, then save. */
  function Mount(st: Storage): (r: Page)
    ensures r.storage.cart == FoldInPending(st).cart
    ensures var restored := st.savedForm.GetOr(EmptyForm);
      r.form == restored.(message := AppendSummary(restored.message, StoredCart(FoldInPending(st))))
    ensures r.storage.savedForm == Some(r.form)
  {
    PersistForm(LoadAndAppend(Page(EmptyForm, st)))
  }

  /** The saved draft survives the corrected mount. */
  lemma MountKeepsDraft(st: Storage)
    requires st.savedForm.Some? && |StoredCart(FoldInPending(st))| > 0
    ensures Mount(st).form.name == st.savedForm.value.name
    ensures Mount(st).form.message == st.savedForm.value.message + Summary(StoredCart(FoldInPending(st)))
  {
  }

  /** The append is not idempotent: mounting again with the restored message
      and the cart still in storage appends a second block. */
  lemma RemountAppendsAgain(st: Storage)
    requires st.savedForm.Some? && |StoredCart(FoldInPending(st))| > 0
    ensures var cart := StoredCart(FoldInPending(st));
      Mount(Mount(st).storage).form.message == st.savedForm.value.message + Summary(cart) + Summary(cart)
  {
    var first := Mount(st);
    assert FoldInPending(first.storage) == first.storage;
  }

  /** A quote request followed by a visit to the contact page leaves the name
      in the cart exactly once, whether or not it was there before. */
  lemma RequestThenMountOnce(st: Storage, name: string)
    requires NoDup(StoredCart(st))
    ensures var cart := StoredCart(Mount(RequestQuote(st, name).storage).storage);
      Occurrences(cart, name) == 1 && NoDup(cart)
  {
    var after := RequestQuote(st, name).storage;
    AddKeepsNoDup(st.(contactProduct := Some(name)), name);
    assert StoredCart(FoldInPending(after)) == StoredCart(after);
    OccurrencesNoDup(StoredCart(after), name);
  }

  /** `clearCart`: drop the stored cart and cut the
      message at the first marker; the form change is then saved. */
  function ClearCart(page: Page): (r: Page)
    ensures r.storage.cart.None? && StoredCart(r.storage) == []
    ensures r.form == page.form.(message := StripSummary(page.form.message))
    ensures r.storage.savedForm == Some(r.form)
    ensures r.storage.contactProduct == page.storage.contactProduct
  {
    var cleared := page.(storage := page.storage.(cart := None));
    PersistForm(cleared.(form := cleared.form.(message := StripSummary(page.form.message))))
  }

  /** Clearing after a corrected mount gives back the saved draft, provided it
      had no marker of its own. */
  lemma ClearAfterMount(st: Storage)
    requires st.savedForm.Some? && !Contains(st.savedForm.value.message, Marker)
    requires |StoredCart(FoldInPending(st))| > 0
    ensures ClearCart(Mount(st)).form == st.savedForm.value
  {
    var m := st.savedForm.value.message;
    var cart := StoredCart(FoldInPending(st));
    StripAfterBlock(m, cart, "");
    assert m + Summary(cart) + "" == m + Summary(cart);
  }

  /** `handleSubmit` after the send settled: on
      success the form is emptied and the cart and saved form are removed, and
      the persist effect then saves the emptied form; on failure nothing
      changes. */
  function Submit(page: Page, sent: bool): (r: Page)
    ensures sent ==> r.form == EmptyForm && r.storage.cart.None? && r.storage.savedForm == Some(EmptyForm)
    ensures sent ==> r.storage.contactProduct == page.storage.contactProduct
    ensures !sent ==> r == page
  {
    if sent then
      var removed := Page(EmptyForm, page.storage.(cart := None, savedForm := None));
      PersistForm(removed)
    else page
  }

  /** The scenario of one product: added, then reported as already there, then
      summarised as "Interested in: Basmati Rice", then cleared back to the
      empty message. */
  lemma BasmatiScenario()
    ensures var st0 := Storage(None, None, None);
      var a := AddToCart(st0, "Basmati Rice");
      var b := AddToCart(a.storage, "Basmati Rice");
      var msg := AppendSummary("", StoredCart(b.storage));
      && a.added && !b.added
      && msg == "\n\nInterested in: Basmati Rice"
      && StripSummary(msg) == ""
  {
    var st0 := Storage(None, None, None);
    var b := AddToCart(AddToCart(st0, "Basmati Rice").storage, "Basmati Rice");
    assert StoredCart(b.storage) == ["Basmati Rice"];
    assert !Contains("", Marker);
    StripAfterBlock("", ["Basmati Rice"], "");
    assert "" + Summary(["Basmati Rice"]) + "" == "\n\nInterested in: Basmati Rice";
  }
}

=== FILE: records.dfy ===
/** The loosely typed product records the two Express back ends
    (backend/index.js and server.js) read from and write to the products file:
    JSON objects as finite maps from field names to values, with
    JavaScript's truthiness, `p.id === id` and the object spread `{ ...a, ...b }`. */
module Records {
  import opened Wrappers
  import opened Seqs

  /** A JSON value. Numbers are integers here; arrays and nested objects are
      not inspected by the handlers and are all `Compound`. */
  datatype Value = Str(s: string) | Num(n: int) | Bool(b: bool) | Null | Compound

  type Record = map<string, Value>

  /** JavaScript truthiness of a JSON value. */
  predicate Truthy(v: Value) {
    match v
    case Str(s) => s != ""
    case Num(n) => n != 0
    case Bool(b) => b
    case Null => false
    case Compound => true
  }

  /** `!!r[field]`: a missing field reads as `undefined`, which is falsy. */
  predicate Present(r: Record, field: string) {
    field in r && Truthy(r[field])
  }

  /** `r.id === id` for a route parameter `id`, which is always a string. */
  predicate HasId(r: Record, id: string) {
    "id" in r && r["id"] == Str(id)
  }

  /** `{ ...prev, ...body }`: every field of both, the body's value winning. */
  function Merge(prev: Record, body: Record): (r: Record)
    ensures r.Keys == prev.Keys + body.Keys
    ensures forall k :: k in body ==> r[k] == body[k]
    ensures forall k :: k in prev && k !in body ==> r[k] == prev[k]
  {
    prev + body
  }

  /** Two merges in a row are one merge with the merged body; merging the same
      body twice is merging it once; an empty body changes nothing. */
  lemma MergeLaws(a: Record, b: Record, c: Record)
    ensures Merge(Merge(a, b), c) == Merge(a, Merge(b, c))
    ensures Merge(Merge(a, b), b) == Merge(a, b)
    ensures Merge(a, map[]) == a
  {
  }

  /** The merged record keeps its id unless the body brings one. */
  lemma MergeKeepsId(prev: Record, body: Record, id: string)
    requires HasId(prev, id)
    ensures HasId(Merge(prev, body), id) <==> "id" !in body || body["id"] == Str(id)
  {
  }

  /** `findIndex((p) => p.id === id)`, with -1 as `None`. */
  function IndexOfId(ps: seq<Record>, id: string): (r: Option<nat>)
    ensures r.Some? <==> exists i :: 0 <= i < |ps| && HasId(ps[i], id)
    ensures r.Some? ==> r.value < |ps| && HasId(ps[r.value], id) && forall j :: 0 <= j < r.value ==> !HasId(ps[j], id)
  {
    FindIndex(ps, p => HasId(p, id))
  }

  /** The records without that id, in order. */
  function WithoutId(ps: seq<Record>, id: string): (r: seq<Record>)
    ensures IsSubseq(r, ps)
    ensures forall i :: 0 <= i < |r| ==> !HasId(r[i], id)
    ensures forall x :: multiset(r)[x] == if HasId(x, id) then 0 else multiset(ps)[x]
  {
    Filter(ps, p => !HasId(p, id))
  }

  /** Position `i` holds the only record with that id. */
  predicate OnlyAt(ps: seq<Record>, id: string, i: int) {
    0 <= i < |ps| && HasId(ps[i], id) && forall j :: 0 <= j < |ps| && j != i ==> !HasId(ps[j], id)
  }

  /** A list with no record of that id loses nothing when they are filtered out. */
  lemma WithoutAbsentId(ps: seq<Record>, id: string)
    requires IndexOfId(ps, id).None?
    ensures WithoutId(ps, id) == ps
  {
    FilterKeepsAll(ps, p => !HasId(p, id));
  }

  /** When exactly one record carries the id, filtering it out is removing that
      one record, which is also the first match. */
  lemma WithoutUniqueId(ps: seq<Record>, id: string, i: int)
    requires OnlyAt(ps, id, i)
    ensures IndexOfId(ps, id) == Some(i)
    ensures WithoutId(ps, id) == ps[..i] + ps[i + 1..]
  {
    var r := IndexOfId(ps, id);
    assert r.Some?;
    var keep := p => !HasId(p, id);
    FilterSplice(ps, keep, i);
  }
}

=== FILE: seqs.dfy ===
/** Generic facts about sequences: order-preserving filtering, first-appearance
    de-duplication and grouping by a key, the three list idioms
    (`Array.prototype.filter`, `Array.from(new Set(...))`, a `forEach` that
    pushes into a keyed record) the catalogue code is built from. */
module Seqs {
  import opened Wrappers

  /** `a` is `b` with some elements left out, the rest in their original order. */
  ghost predicate IsSubseq<T>(a: seq<T>, b: seq<T>)
    decreases |b|
  {
    if |a| == 0 then true
    else if |b| == 0 then false
    else (a[0] == b[0] && IsSubseq(a[1..], b[1..])) || IsSubseq(a, b[1..])
  }

  /** Keeping the head of `b` in front of a subsequence of its tail gives a
      subsequence of `b`. */
  lemma SubseqKeepHead<T>(a: seq<T>, b: seq<T>)
    requires |b| > 0 && IsSubseq(a, b[1..])
    ensures IsSubseq([b[0]] + a, b)
  {
    assert ([b[0]] + a)[1..] == a;
  }

  /** A subsequence of the tail of `b` is a subsequence of `b`. */
  lemma SubseqSkipHead<T>(a: seq<T>, b: seq<T>)
    requires |b| > 0 && IsSubseq(a, b[1..])
    ensures IsSubseq(a, b)
  {
  }

  /** No element occurs twice. */
  predicate NoDup<T(==)>(s: seq<T>) {
    forall i, j :: 0 <= i < j < |s| ==> s[i] != s[j]
  }

  /** Index of the first occurrence of `x` in `s`. */
  function FirstIndex<T(==)>(s: seq<T>, x: T): (i: nat)
    requires x in s
    ensures i < |s| && s[i] == x && x !in s[..i]
  {
    if s[0] == x then 0
    else
      var j := FirstIndex(s[1..], x);
      assert s[1..][..j] == s[1..j + 1];
      1 + j
  }

  /** `Array.prototype.filter`: the elements satisfying `keep`, in order. */
  function Filter<T(!new)>(s: seq<T>, keep: T -> bool): (r: seq<T>)
    ensures |r| <= |s|
    ensures IsSubseq(r, s)
    ensures forall i :: 0 <= i < |r| ==> keep(r[i])
    ensures forall x :: multiset(r)[x] == if keep(x) then multiset(s)[x] else 0
  {
    if |s| == 0 then []
    else
      var rest := Filter(s[1..], keep);
      assert s == [s[0]] + s[1..];
      if keep(s[0]) then
        assert ([s[0]] + rest)[1..] == rest;
        [s[0]] + rest
      else rest
  }

  /** Membership in a filtered sequence, derived from the multiplicities. */
  lemma FilterMembership<T(!new)>(s: seq<T>, keep: T -> bool, x: T)
    ensures x in Filter(s, keep) <==> x in s && keep(x)
  {
    var r := Filter(s, keep);
    assert x in r <==> multiset(r)[x] > 0;
    assert x in s <==> multiset(s)[x] > 0;
  }

  /** A filter that keeps every element returns the list unchanged. */
  lemma {:induction false} FilterKeepsAll<T(!new)>(s: seq<T>, keep: T -> bool)
    requires forall i :: 0 <= i < |s| ==> keep(s[i])
    ensures Filter(s, keep) == s
    decreases |s|
  {
    if |s| > 0 {
      FilterKeepsAll(s[1..], keep);
      assert s == [s[0]] + s[1..];
    }
  }

  /** A list is duplicate-free exactly when no element has multiplicity above one. */
  lemma {:induction false} NoDupMultiset<T>(s: seq<T>)
    ensures NoDup(s) <==> forall x :: multiset(s)[x] <= 1
    decreases |s|
  {
    if |s| > 0 {
      var t := s[1..];
      assert s == [s[0]] + t;
      assert multiset(s) == multiset{s[0]} + multiset(t);
      NoDupMultiset(t);
      if NoDup(s) {
        assert NoDup(t) by {
          forall i, j | 0 <= i < j < |t| ensures t[i] != t[j] {
            assert t[i] == s[i + 1] && t[j] == s[j + 1];
          }
        }
        assert s[0] !in t;
      }
      if forall x :: multiset(s)[x] <= 1 {
        assert forall x :: multiset(t)[x] <= 1 by {
          forall x ensures multiset(t)[x] <= 1 {
            assert multiset(s)[x] <= 1;
          }
        }
        assert multiset(s)[s[0]] <= 1;
        assert s[0] !in multiset(t);
        forall i, j | 0 <= i < j < |s| ensures s[i] != s[j] {
          if i == 0 {
            assert s[j] == t[j - 1];
            assert s[j] in multiset(t);
          } else {
            assert s[i] == t[i - 1] && s[j] == t[j - 1];
          }
        }
      }
    }
  }

  /** Two lists with the same multiset are duplicate-free together. */
  lemma NoDupPermutation<T>(a: seq<T>, b: seq<T>)
    requires multiset(a) == multiset(b) && NoDup(b)
    ensures NoDup(a)
  {
    NoDupMultiset(a);
    NoDupMultiset(b);
  }

  /** No element has key `k`, so none is counted under it. */
  lemma KeyCountAbsent<T(!new), K>(s: seq<T>, key: T -> K, k: K)
    requires forall i :: 0 <= i < |s| ==> key(s[i]) != k
    ensures KeyCount(s, key, k) == 0
  {
  }

  /** Filtering distributes over concatenation. */
  lemma {:induction false} FilterAppend<T(!new)>(a: seq<T>, b: seq<T>, keep: T -> bool)
    ensures Filter(a + b, keep) == Filter(a, keep) + Filter(b, keep)
    decreases |a|
  {
    if |a| > 0 {
      assert (a + b)[1..] == a[1..] + b;
      FilterAppend(a[1..], b, keep);
    } else {
      assert a + b == b;
    }
  }

  /** Appending a rejected element to a list the filter keeps whole, then
      filtering, gives back the list. */
  lemma FilterDropsLast<T(!new)>(s: seq<T>, x: T, keep: T -> bool)
    requires forall i :: 0 <= i < |s| ==> keep(s[i])
    requires !keep(x)
    ensures Filter(s + [x], keep) == s
  {
    FilterKeepsAll(s, keep);
    FilterAppend(s, [x], keep);
    assert Filter([x], keep) == [];
    assert s + [] == s;
  }

  /** Filtering out a single rejected element is splicing it out. */
  lemma {:induction false} FilterSplice<T(!new)>(s: seq<T>, keep: T -> bool, i: int)
    requires 0 <= i < |s| && !keep(s[i])
    requires forall j :: 0 <= j < |s| && j != i ==> keep(s[j])
    ensures Filter(s, keep) == s[..i] + s[i + 1..]
    decreases i
  {
    var t := s[1..];
    if i == 0 {
      FilterKeepsAll(t, keep);
      assert s[..0] + s[1..] == t;
    } else {
      SpliceTailKeeps(s, keep, i);
      FilterSplice(t, keep, i - 1);
      FilterSpliceStep(s, keep, i);
    }
  }

  /** Behind the head, the rejected element sits one place earlier. */
  lemma SpliceTailKeeps<T(!new)>(s: seq<T>, keep: T -> bool, i: int)
    requires 0 < i < |s| && !keep(s[i])
    requires forall j :: 0 <= j < |s| && j != i ==> keep(s[j])
    ensures keep(s[0]) && !keep(s[1..][i - 1])
    ensures forall j :: 0 <= j < |s[1..]| && j != i - 1 ==> keep(s[1..][j])
  {
    var t := s[1..];
    forall j | 0 <= j < |t| && j != i - 1 ensures keep(t[j]) {
      assert t[j] == s[j + 1];
    }
  }

  /** The splice in the tail, behind a kept head, is the splice in the list. */
  lemma FilterSpliceStep<T(!new)>(s: seq<T>, keep: T -> bool, i: int)
    requires 0 < i < |s| && keep(s[0])
    requires Filter(s[1..], keep) == s[1..][..i - 1] + s[1..][i..]
    ensures Filter(s, keep) == s[..i] + s[i + 1..]
  {
    FilterKeptHead(s, keep);
    SpliceCons(s, i);
  }

  /** A kept head stays at the front of the filtered list. */
  lemma FilterKeptHead<T(!new)>(s: seq<T>, keep: T -> bool)
    requires |s| > 0 && keep(s[0])
    ensures Filter(s, keep) == [s[0]] + Filter(s[1..], keep)
  {
  }

  lemma SpliceCons<T>(s: seq<T>, i: int)
    requires 0 < i < |s|
    ensures [s[0]] + (s[1..][..i - 1] + s[1..][i..]) == s[..i] + s[i + 1..]
  {
    assert s[..i] == [s[0]] + s[1..][..i - 1];
    assert s[i + 1..] == s[1..][i..];
  }

  /** Filters with pointwise-equal tests give the same result. */
  lemma {:induction false} FilterExt<T(!new)>(s: seq<T>, a: T -> bool, b: T -> bool)
    requires forall x :: a(x) == b(x)
    ensures Filter(s, a) == Filter(s, b)
    decreases |s|
  {
    if |s| > 0 {
      FilterExt(s[1..], a, b);
    }
  }

  /** Filtering twice is filtering once by both tests. */
  lemma {:induction false} FilterFilter<T(!new)>(s: seq<T>, a: T -> bool, b: T -> bool, both: T -> bool)
    requires forall x :: both(x) == (a(x) && b(x))
    ensures Filter(Filter(s, a), b) == Filter(s, both)
    decreases |s|
  {
    if |s| > 0 {
      FilterFilter(s[1..], a, b, both);
      var rest := Filter(s[1..], a);
      if a(s[0]) {
        assert Filter(s, a) == [s[0]] + rest;
        assert ([s[0]] + rest)[1..] == rest;
      }
    }
  }

  /** The elements of `s` whose key is `k`, in order. */
  function KeyFilter<T(!new), K(==)>(s: seq<T>, key: T -> K, k: K): (r: seq<T>)
    ensures IsSubseq(r, s)
    ensures forall i :: 0 <= i < |r| ==> key(r[i]) == k
    ensures forall x :: multiset(r)[x] == if key(x) == k then multiset(s)[x] else 0
  {
    Filter(s, x => key(x) == k)
  }

  /** A key filter is a filter by any test that holds exactly on that key. */
  lemma KeyFilterIsFilter<T(!new), K>(s: seq<T>, key: T -> K, k: K, keep: T -> bool)
    requires forall x :: keep(x) == (key(x) == k)
    ensures KeyFilter(s, key, k) == Filter(s, keep)
  {
    FilterExt(s, x => key(x) == k, keep);
  }

  /** Number of elements of `s` whose key is `k`. */
  function KeyCount<T(!new), K(==)>(s: seq<T>, key: T -> K, k: K): nat
  {
    |KeyFilter(s, key, k)|
  }

  /** Sum of `KeyCount` over a list of keys. */
  function SumKeyCounts<T(!new), K(==)>(keys: seq<K>, s: seq<T>, key: T -> K): nat
  {
    if |keys| == 0 then 0
    else KeyCount(s, key, keys[0]) + SumKeyCounts(keys[1..], s, key)
  }

  /** Number of occurrences of `x` in `s`. */
  function Occurrences<T(==)>(s: seq<T>, x: T): nat
  {
    if |s| == 0 then 0 else (if s[0] == x then 1 else 0) + Occurrences(s[1..], x)
  }

  /** In a duplicate-free list, an element occurs once and a non-element never. */
  lemma {:induction false} OccurrencesNoDup<T>(s: seq<T>, x: T)
    requires NoDup(s)
    ensures Occurrences(s, x) == if x in s then 1 else 0
    decreases |s|
  {
    if |s| > 0 {
      assert NoDup(s[1..]) by {
        forall i, j | 0 <= i < j < |s[1..]| ensures s[1..][i] != s[1..][j] {
          assert s[1..][i] == s[i + 1] && s[1..][j] == s[j + 1];
        }
      }
      OccurrencesNoDup(s[1..], x);
      if s[0] == x {
        assert x !in s[1..];
      } else {
        assert x in s <==> x in s[1..] by {
          assert s == [s[0]] + s[1..];
        }
      }
    }
  }

  /** Adding one element to the counted list adds one to the count of every key equal to its key. */
  lemma {:induction false} SumKeyCountsCons<T(!new), K>(keys: seq<K>, x: T, t: seq<T>, key: T -> K)
    ensures SumKeyCounts(keys, [x] + t, key) == SumKeyCounts(keys, t, key) + Occurrences(keys, key(x))
    decreases |keys|
  {
    if |keys| > 0 {
      assert ([x] + t)[1..] == t;
      SumKeyCountsCons(keys[1..], x, t, key);
    }
  }

  /** Partition size: when every element's key is among `keys`, listed once each,
      the per-key counts add up to the length of the list. */
  lemma {:induction false} PartitionSize<T(!new), K>(keys: seq<K>, s: seq<T>, key: T -> K)
    requires NoDup(keys)
    requires forall i :: 0 <= i < |s| ==> key(s[i]) in keys
    ensures SumKeyCounts(keys, s, key) == |s|
    decreases |s|
  {
    if |s| == 0 {
      ZeroCounts(keys, key);
    } else {
      assert s == [s[0]] + s[1..];
      PartitionSize(keys, s[1..], key);
      SumKeyCountsCons(keys, s[0], s[1..], key);
      OccurrencesNoDup(keys, key(s[0]));
    }
  }

  lemma {:induction false} ZeroCounts<T(!new), K>(keys: seq<K>, key: T -> K)
    ensures SumKeyCounts(keys, [], key) == 0
    decreases |keys|
  {
    if |keys| > 0 {
      ZeroCounts(keys[1..], key);
    }
  }

  /** `Array.from(new Set(s))`: each distinct element once, in order of first appearance. */
  function Distinct<T(==,!new)>(s: seq<T>): (r: seq<T>)
    ensures NoDup(r)
    ensures forall x :: x in r <==> x in s
    ensures |r| <= |s|
  {
    if |s| == 0 then []
    else
      var d := Distinct(s[..|s| - 1]);
      var last := s[|s| - 1];
      assert s == s[..|s| - 1] + [last];
      if last in d then d else d + [last]
  }

  /** Two elements of `Distinct(s)` keep the order of their first appearances in `s`. */
  lemma {:induction false} DistinctFirstAppearance<T(!new)>(s: seq<T>, i: int, j: int)
    requires 0 <= i < j < |Distinct(s)|
    ensures Distinct(s)[i] in s && Distinct(s)[j] in s
    ensures FirstIndex(s, Distinct(s)[i]) < FirstIndex(s, Distinct(s)[j])
    decreases |s|
  {
    var n := |s| - 1;
    var p := s[..n];
    var d := Distinct(p);
    var last := s[n];
    assert s == p + [last];
    var x, y := Distinct(s)[i], Distinct(s)[j];
    assert x in p by {
      if last in d {
      } else {
        assert i < |d|;
        assert x == d[i];
      }
    }
    FirstIndexInPrefix(s, n, x);
    if j < |d| {
      assert Distinct(s)[i] == d[i] && Distinct(s)[j] == d[j];
      FirstIndexInPrefix(s, n, y);
      assert y in p;
      DistinctFirstAppearance(p, i, j);
    } else {
      assert last !in d && y == last;
      assert y !in p;
      assert FirstIndex(s, y) == n;
    }
  }

  /** The first index of an element of a prefix is its first index in the prefix. */
  lemma FirstIndexInPrefix<T>(s: seq<T>, n: nat, x: T)
    requires n <= |s| && x in s[..n]
    ensures x in s && FirstIndex(s, x) == FirstIndex(s[..n], x) < n
  {
    var k := FirstIndex(s[..n], x);
    assert s[k] == x;
    forall j | 0 <= j < k ensures s[j] != x {
      assert s[..n][..k][j] == s[j];
    }
    FirstIndexUnique(s, x, k);
  }

  /** The first index is the position of `x` with no `x` before it. */
  lemma {:induction false} FirstIndexUnique<T>(s: seq<T>, x: T, i: int)
    requires 0 <= i < |s| && s[i] == x
    requires forall j :: 0 <= j < i ==> s[j] != x
    ensures FirstIndex(s, x) == i
    decreases i
  {
    if i > 0 {
      assert s[1..][i - 1] == x;
      FirstIndexUnique(s[1..], x, i - 1);
    }
  }

  /** `g` holds, under each key met in `s`, exactly the elements of `s` with that key, in order. */
  ghost predicate GroupsOf<T(!new), K(!new)>(g: map<K, seq<T>>, s: seq<T>, key: T -> K) {
    && (forall k :: k in g <==> exists i :: 0 <= i < |s| && key(s[i]) == k)
    && (forall k :: k in g ==> |g[k]| > 0)
    && (forall k :: k in g ==> g[k] == KeyFilter(s, key, k))
  }

  /** A `forEach` that pushes every element onto the list under its key,
      creating the list the first time the key is met. */
  function GroupBy<T(!new), K(==,!new)>(s: seq<T>, key: T -> K): (g: map<K, seq<T>>)
    ensures GroupsOf(g, s, key)
    decreases |s|
  {
    if |s| == 0 then map[]
    else
      var n := |s| - 1;
      var g0 := GroupBy(s[..n], key);
      GroupByStep(g0, s, key);
      Push(g0, key(s[n]), s[n])
  }

  /** Appends `x` to the list under `k`, starting a new list when `k` is absent. */
  function Push<T, K>(g: map<K, seq<T>>, k: K, x: T): map<K, seq<T>>
  {
    g[k := (if k in g then g[k] else []) + [x]]
  }

  /** One `forEach` step keeps the grouping exact. */
  lemma GroupByStep<T(!new), K(!new)>(g0: map<K, seq<T>>, s: seq<T>, key: T -> K)
    requires |s| > 0 && GroupsOf(g0, s[..|s| - 1], key)
    ensures GroupsOf(Push(g0, key(s[|s| - 1]), s[|s| - 1]), s, key)
  {
    var n := |s| - 1;
    var g := Push(g0, key(s[n]), s[n]);
    assert forall k' :: k' in g <==> exists i :: 0 <= i < |s| && key(s[i]) == k' by {
      forall k' ensures k' in g <==> exists i :: 0 <= i < |s| && key(s[i]) == k' {
        PushKeys(g0, s, key, k');
      }
    }
    assert forall k' :: k' in g ==> g[k'] == KeyFilter(s, key, k') by {
      forall k' | k' in g ensures g[k'] == KeyFilter(s, key, k') {
        PushContents(g0, s, key, k');
      }
    }
    assert forall k' :: k' in g ==> |g[k']| > 0 by {
      forall k' | k' in g ensures |g[k']| > 0 {
        if k' != key(s[n]) {
          assert g[k'] == g0[k'];
        }
      }
    }
    GroupsOfIntro(g, s, key);
  }

  lemma GroupsOfIntro<T(!new), K(!new)>(g: map<K, seq<T>>, s: seq<T>, key: T -> K)
    requires forall k :: k in g <==> exists i :: 0 <= i < |s| && key(s[i]) == k
    requires forall k :: k in g ==> g[k] == KeyFilter(s, key, k)
    requires forall k :: k in g ==> |g[k]| > 0
    ensures GroupsOf(g, s, key)
  {
  }

  lemma PushKeys<T(!new), K(!new)>(g0: map<K, seq<T>>, s: seq<T>, key: T -> K, k': K)
    requires |s| > 0 && GroupsOf(g0, s[..|s| - 1], key)
    ensures k' in Push(g0, key(s[|s| - 1]), s[|s| - 1]) <==> exists i :: 0 <= i < |s| && key(s[i]) == k'
  {
    var n := |s| - 1;
    if k' in g0 {
      var i :| 0 <= i < n && key(s[..n][i]) == k';
      assert key(s[i]) == k';
    }
    if exists i :: 0 <= i < |s| && key(s[i]) == k' {
      var i :| 0 <= i < |s| && key(s[i]) == k';
      if i < n {
        assert key(s[..n][i]) == k';
      }
    }
  }

  lemma PushContents<T(!new), K(!new)>(g0: map<K, seq<T>>, s: seq<T>, key: T -> K, k': K)
    requires |s| > 0 && GroupsOf(g0, s[..|s| - 1], key)
    requires k' in Push(g0, key(s[|s| - 1]), s[|s| - 1])
    ensures Push(g0, key(s[|s| - 1]), s[|s| - 1])[k'] == KeyFilter(s, key, k')
  {
    var n := |s| - 1;
    var prefix, last := s[..n], s[n];
    assert s == prefix + [last];
    FilterAppend(prefix, [last], x => key(x) == k');
    PushBefore(g0, prefix, key, k');
    LastKeyFilter(last, key, k');
  }

  /** Before the push, a key's list is its filter of the prefix, empty when
      the key has not been met. */
  lemma PushBefore<T(!new), K(!new)>(g0: map<K, seq<T>>, prefix: seq<T>, key: T -> K, k': K)
    requires GroupsOf(g0, prefix, key)
    ensures (if k' in g0 then g0[k'] else []) == KeyFilter(prefix, key, k')
  {
    if k' !in g0 {
      assert forall i :: 0 <= i < |prefix| ==> key(prefix[i]) != k';
      KeyCountAbsent(prefix, key, k');
    }
  }

  lemma LastKeyFilter<T(!new), K>(last: T, key: T -> K, k': K)
    ensures KeyFilter([last], key, k') == if key(last) == k' then [last] else []
  {
  }

  // ---------------------------------------------------------------- first match

  /** `Array.prototype.findIndex`, with "not found" as `None`. */
  function FindIndex<T>(s: seq<T>, p: T -> bool): (r: Option<nat>)
    ensures r.Some? <==> exists i :: 0 <= i < |s| && p(s[i])
    ensures r.Some? ==> r.value < |s| && p(s[r.value]) && forall j :: 0 <= j < r.value ==> !p(s[j])
  {
    if |s| == 0 then None
    else if p(s[0]) then Some(0)
    else
      var rest := FindIndex(s[1..], p);
      if rest.None? then
        assert forall i :: 1 <= i < |s| ==> s[i] == s[1..][i - 1];
        None
      else
        assert s[1 + rest.value] == s[1..][rest.value];
        assert forall j :: 1 <= j < 1 + rest.value ==> s[j] == s[1..][j - 1];
        Some(1 + rest.value)
  }

  /** `Array.prototype.find`: the first element satisfying `p`. */
  function Find<T>(s: seq<T>, p: T -> bool): (r: Option<T>)
  {
    match FindIndex(s, p)
    case None => None
    case Some(i) => Some(s[i])
  }

  /** Two lists of equal length on which `p` holds at the same positions, and
      which agree wherever it holds, have the same first match. */
  lemma FindSameMask<T>(s: seq<T>, t: seq<T>, p: T -> bool)
    requires |s| == |t|
    requires forall i :: 0 <= i < |s| ==> (p(s[i]) <==> p(t[i]))
    requires forall i :: 0 <= i < |s| && p(s[i]) ==> s[i] == t[i]
    ensures FindIndex(s, p) == FindIndex(t, p)
    ensures Find(s, p) == Find(t, p)
  {
  }

  /** Filtering with a `keep` that holds wherever `p` does leaves the first
      match of `p` unchanged. */
  lemma {:induction false} FindFilter<T(!new)>(s: seq<T>, keep: T -> bool, p: T -> bool)
    requires forall x :: p(x) ==> keep(x)
    ensures Find(Filter(s, keep), p) == Find(s, p)
    decreases |s|
  {
    if |s| > 0 {
      FindFilter(s[1..], keep, p);
      var rest := Filter(s[1..], keep);
      FindTail(s, p);
      if keep(s[0]) {
        assert Filter(s, keep) == [s[0]] + rest;
        FindTail([s[0]] + rest, p);
        assert ([s[0]] + rest)[1..] == rest;
      }
    }
  }

  /** The first match of a non-empty list, in terms of its head and tail. */
  lemma FindTail<T>(s: seq<T>, p: T -> bool)
    requires |s| > 0
    ensures Find(s, p) == if p(s[0]) then Some(s[0]) else Find(s[1..], p)
  {
    if !p(s[0]) {
      var a := FindIndex(s, p);
      if a.Some? {
        assert p(s[1..][a.value - 1]);
      }
    }
  }

  /** The first match after appending one element. */
  lemma FindAppend<T>(s: seq<T>, x: T, p: T -> bool)
    ensures Find(s + [x], p) == if Find(s, p).Some? then Find(s, p) else if p(x) then Some(x) else None
  {
    var a := FindIndex(s, p);
    if a.Some? {
      assert (s + [x])[a.value] == s[a.value];
    } else {
      assert forall i :: 0 <= i < |s| ==> (s + [x])[i] == s[i];
      assert (s + [x])[|s|] == x;
    }
  }
}

=== FILE: text.dfy ===
/** String operations the source takes from JavaScript's `String.prototype`:
    ASCII case mapping (`toLowerCase`/`toUpperCase` restricted to ASCII),
    substring search (`includes`, `indexOf`), `split` on one character,
    `join`, `trim`, splitting on whitespace runs, one-character `replace`
    and decimal rendering of a number (`String(n)`). */
module Text {
  import opened Wrappers

  // ---------------------------------------------------------------- case

  predicate IsAsciiUpper(c: char) { 'A' <= c <= 'Z' }
  predicate IsAsciiLower(c: char) { 'a' <= c <= 'z' }

  function LowerChar(c: char): (d: char)
    ensures !IsAsciiUpper(d)
    ensures IsAsciiUpper(c) ==> IsAsciiLower(d) && d as int == c as int + 32
    ensures !IsAsciiUpper(c) ==> d == c
  {
    if IsAsciiUpper(c) then (c as int + 32) as char else c
  }

  function UpperChar(c: char): (d: char)
    ensures !IsAsciiLower(d)
    ensures IsAsciiLower(c) ==> IsAsciiUpper(d) && d as int == c as int - 32
    ensures !IsAsciiLower(c) ==> d == c
  {
    if IsAsciiLower(c) then (c as int - 32) as char else c
  }

  /** `s.toLowerCase()` on ASCII letters; every other character is kept. */
  function Lower(s: string): (r: string)
    ensures |r| == |s|
    ensures forall i :: 0 <= i < |s| ==> r[i] == LowerChar(s[i])
  {
    seq(|s|, i requires 0 <= i < |s| => LowerChar(s[i]))
  }

  lemma LowerAppend(a: string, b: string)
    ensures Lower(a + b) == Lower(a) + Lower(b)
  {
  }

  /** `word.charAt(0).toUpperCase() + word.slice(1)`. */
  function CapitalizeFirst(w: string): (r: string)
    ensures |r| == |w|
    ensures |w| > 0 ==> r[0] == UpperChar(w[0]) && r[1..] == w[1..]
  {
    if |w| == 0 then "" else [UpperChar(w[0])] + w[1..]
  }

  // ---------------------------------------------------------------- search

  /** `t` occurs in `s` starting at index `i`. */
  predicate OccursAt(s: string, t: string, i: int) {
    0 <= i && i + |t| <= |s| && s[i..i + |t|] == t
  }

  /** `s.includes(t)`. */
  predicate Contains(s: string, t: string) {
    exists i :: 0 <= i <= |s| && OccursAt(s, t, i)
  }

  /** `s.indexOf(t, k)`, with `None` for JavaScript's -1: the first occurrence
      at or after `k`. */
  function IndexFrom(s: string, t: string, k: nat): (r: Option<nat>)
    requires k <= |s|
    ensures r.Some? ==> k <= r.value && OccursAt(s, t, r.value)
    ensures r.Some? ==> forall j :: k <= j < r.value ==> !OccursAt(s, t, j)
    ensures r.None? ==> forall j :: k <= j ==> !OccursAt(s, t, j)
    decreases |s| - k
  {
    if k + |t| > |s| then None
    else if OccursAt(s, t, k) then Some(k)
    else if k == |s| then None
    else IndexFrom(s, t, k + 1)
  }

  /** `s.indexOf(t)`: the first occurrence of `t` in `s`, if any. */
  function IndexOf(s: string, t: string): (r: Option<nat>)
    ensures r.Some? <==> Contains(s, t)
    ensures r.Some? ==> OccursAt(s, t, r.value) && forall j :: 0 <= j < r.value ==> !OccursAt(s, t, j)
  {
    IndexFrom(s, t, 0)
  }

  /** Every string contains the empty string, at index 0. */
  lemma ContainsEmpty(s: string)
    ensures Contains(s, "")
  {
    assert OccursAt(s, "", 0);
  }

  // ---------------------------------------------------------------- split and join

  /** `parts.join(sep)`. */
  function Join(parts: seq<string>, sep: string): string
  {
    if |parts| == 0 then ""
    else if |parts| == 1 then parts[0]
    else parts[0] + sep + Join(parts[1..], sep)
  }

  /** `s.split(c)` for a one-character separator: the pieces between the
      occurrences of `c`; there is always at least one piece. */
  function Split(s: string, c: char): (r: seq<string>)
    ensures |r| > 0
    ensures forall i :: 0 <= i < |r| ==> c !in r[i]
    ensures |r| == Count(s, c) + 1
  {
    if |s| == 0 then [""]
    else
      var rest := Split(s[1..], c);
      if s[0] == c then [""] + rest
      else [[s[0]] + rest[0]] + rest[1..]
  }

  /** Number of occurrences of `c` in `s`. */
  function Count(s: string, c: char): nat
  {
    if |s| == 0 then 0 else (if s[0] == c then 1 else 0) + Count(s[1..], c)
  }

  /** Joining the pieces of a split with the separator gives back the string. */
  lemma {:induction false} JoinSplit(s: string, c: char)
    ensures Join(Split(s, c), [c]) == s
    decreases |s|
  {
    if |s| > 0 {
      var rest := Split(s[1..], c);
      JoinSplit(s[1..], c);
      if s[0] == c {
        assert Split(s, c) == [""] + rest;
        assert ([""] + rest)[1..] == rest;
      } else {
        var head := [s[0]] + rest[0];
        assert Split(s, c) == [head] + rest[1..];
        if |rest| == 1 {
        } else {
          assert rest == [rest[0]] + rest[1..];
          assert ([head] + rest[1..])[1..] == rest[1..];
          assert Join(rest, [c]) == rest[0] + [c] + Join(rest[1..], [c]);
        }
        assert s == [s[0]] + s[1..];
      }
    }
  }

  /** Splitting a join of separator-free pieces gives back the pieces. */
  lemma {:induction false} SplitJoin(parts: seq<string>, c: char)
    requires |parts| > 0
    requires forall i :: 0 <= i < |parts| ==> c !in parts[i]
    ensures Split(Join(parts, [c]), c) == parts
    decreases |parts|
  {
    if |parts| == 1 {
      SplitPlain(parts[0], c, []);
      assert parts[0] + [] == parts[0];
    } else {
      var tail := Join(parts[1..], [c]);
      SplitJoin(parts[1..], c);
      assert Join(parts, [c]) == parts[0] + ([c] + tail);
      SplitPlain(parts[0], c, [c] + tail);
      assert ([c] + tail)[1..] == tail;
      assert Split([c] + tail, c) == [""] + parts[1..];
      assert parts[0] + "" == parts[0];
      assert parts == [parts[0]] + parts[1..];
    }
  }

  /** A separator-free prefix becomes part of the first piece. */
  lemma {:induction false} SplitPlain(w: string, c: char, rest: string)
    requires c !in w
    requires rest == [] || rest[0] == c
    ensures Split(w + rest, c) == [w + Split(rest, c)[0]] + Split(rest, c)[1..]
    decreases |w|
  {
    if |w| > 0 {
      assert (w + rest)[1..] == w[1..] + rest;
      SplitPlain(w[1..], c, rest);
      var r := Split(rest, c);
      var big := Split(w[1..] + rest, c);
      assert big[0] == w[1..] + r[0] && big[1..] == r[1..];
      assert (w + rest)[0] == w[0] != c;
      assert Split(w + rest, c) == [[w[0]] + big[0]] + big[1..];
      assert [w[0]] + (w[1..] + r[0]) == w + r[0];
    } else {
      assert w + rest == rest;
      var r := Split(rest, c);
      assert w + r[0] == r[0];
      assert r == [r[0]] + r[1..];
    }
  }

  /** A word joined with one other by `sep` is the two-word join. */
  lemma JoinTwo(a: string, b: string, sep: string)
    ensures Join([a, b], sep) == a + sep + b
  {
    assert [a, b][1..] == [b];
  }

  /** `s.replace(/a/g, b)` for single characters. */
  function ReplaceChar(s: string, a: char, b: char): (r: string)
    ensures |r| == |s|
    ensures forall i :: 0 <= i < |s| ==> r[i] == if s[i] == a then b else s[i]
  {
    seq(|s|, i requires 0 <= i < |s| => if s[i] == a then b else s[i])
  }

  /** Replacing `a` by `b` and then `b` by `a` restores a string that had no `b`. */
  lemma ReplaceCharInverse(s: string, a: char, b: char)
    requires b !in s
    ensures ReplaceChar(ReplaceChar(s, a, b), b, a) == s
  {
    var r := ReplaceChar(ReplaceChar(s, a, b), b, a);
    forall i | 0 <= i < |s| ensures r[i] == s[i] {
      assert s[i] != b;
    }
  }

  lemma ReplaceCharAppend(s: string, t: string, a: char, b: char)
    ensures ReplaceChar(s + t, a, b) == ReplaceChar(s, a, b) + ReplaceChar(t, a, b)
  {
  }

  /** Replacing a character that does not occur changes nothing. */
  lemma ReplaceCharAbsent(s: string, a: char, b: char)
    requires a !in s
    ensures ReplaceChar(s, a, b) == s
  {
  }

  /** Replacing the separator of a join of separator-free parts is joining
      them with the replacement. */
  lemma {:induction false} ReplaceJoin(ws: seq<string>, a: char, b: char)
    requires forall k :: 0 <= k < |ws| ==> a !in ws[k]
    ensures ReplaceChar(Join(ws, [a]), a, b) == Join(ws, [b])
    decreases |ws|
  {
    if |ws| == 1 {
      ReplaceCharAbsent(ws[0], a, b);
    } else if |ws| > 1 {
      var rest := ws[1..];
      assert forall k :: 0 <= k < |rest| ==> a !in rest[k] by {
        forall k | 0 <= k < |rest| ensures a !in rest[k] { assert rest[k] == ws[k + 1]; }
      }
      ReplaceJoin(rest, a, b);
      var t := Join(rest, [a]);
      ReplaceCharAppend(ws[0] + [a], t, a, b);
      ReplaceCharAppend(ws[0], [a], a, b);
      ReplaceCharAbsent(ws[0], a, b);
      assert ReplaceChar([a], a, b) == [b];
    }
  }

  /** A join keeps any property that every character of the parts and the
      separator has. */
  lemma {:induction false} JoinKeeps(ws: seq<string>, sep: string, p: char -> bool)
    requires forall k, i :: 0 <= k < |ws| && 0 <= i < |ws[k]| ==> p(ws[k][i])
    requires forall i :: 0 <= i < |sep| ==> p(sep[i])
    ensures forall i :: 0 <= i < |Join(ws, sep)| ==> p(Join(ws, sep)[i])
    decreases |ws|
  {
    if |ws| > 1 {
      var rest := ws[1..];
      assert forall k, i :: 0 <= k < |rest| && 0 <= i < |rest[k]| ==> p(rest[k][i]) by {
        forall k, i | 0 <= k < |rest| && 0 <= i < |rest[k]| ensures p(rest[k][i]) { assert rest[k] == ws[k + 1]; }
      }
      JoinKeeps(rest, sep, p);
      var s, t := ws[0] + sep, Join(rest, sep);
      assert Join(ws, sep) == s + t;
      forall i | 0 <= i < |s + t| ensures p((s + t)[i]) {
        if i >= |s| {
          assert (s + t)[i] == t[i - |s|];
        } else if i >= |ws[0]| {
          assert (s + t)[i] == sep[i - |ws[0]|];
        } else {
          assert (s + t)[i] == ws[0][i];
        }
      }
    }
  }

  /** Lower-casing a string without capitals changes nothing. */
  lemma LowerNoCapitals(s: string)
    requires forall i :: 0 <= i < |s| ==> !IsAsciiUpper(s[i])
    ensures Lower(s) == s
  {
  }

  // ---------------------------------------------------------------- whitespace

  /** JavaScript's WhiteSpace and LineTerminator characters, the set matched by
      `\s` and removed by `trim()`. */
  predicate IsSpace(c: char) {
    || c == '\t' || c == '\n' || c == '\U{000B}' || c == '\U{000C}' || c == '\r' || c == ' '
    || c == '\U{00A0}' || c == '\U{1680}' || ('\U{2000}' <= c <= '\U{200A}')
    || c == '\U{2028}' || c == '\U{2029}' || c == '\U{202F}' || c == '\U{205F}'
    || c == '\U{3000}' || c == '\U{FEFF}'
  }

  /** Changing ASCII case never turns a character into whitespace or back. */
  lemma CaseKeepsSpace(c: char)
    ensures IsSpace(LowerChar(c)) <==> IsSpace(c)
    ensures IsSpace(UpperChar(c)) <==> IsSpace(c)
  {
  }

  function TrimStart(s: string): (r: string)
    ensures |r| <= |s| && r == s[|s| - |r|..]
    ensures |r| > 0 ==> !IsSpace(r[0])
    ensures forall i :: 0 <= i < |s| - |r| ==> IsSpace(s[i])
  {
    if |s| > 0 && IsSpace(s[0]) then TrimStart(s[1..]) else s
  }

  function TrimEnd(s: string): (r: string)
    ensures |r| <= |s| && r == s[..|r|]
    ensures |r| > 0 ==> !IsSpace(r[|r| - 1])
    ensures forall i :: |r| <= i < |s| ==> IsSpace(s[i])
  {
    if |s| > 0 && IsSpace(s[|s| - 1]) then TrimEnd(s[..|s| - 1]) else s
  }

  /** `s.trim()`. */
  function Trim(s: string): (r: string)
  {
    TrimEnd(TrimStart(s))
  }

  /** `trim()` removes exactly the leading and trailing whitespace: the result
      is a slice of `s` with no whitespace at either end and only whitespace
      around it. */
  lemma TrimSlice(s: string)
    ensures LeadingSpace(s) + |Trim(s)| <= |s|
    ensures Trim(s) == s[LeadingSpace(s)..LeadingSpace(s) + |Trim(s)|]
    ensures forall j :: 0 <= j < LeadingSpace(s) ==> IsSpace(s[j])
    ensures forall j :: LeadingSpace(s) + |Trim(s)| <= j < |s| ==> IsSpace(s[j])
    ensures |Trim(s)| > 0 ==> !IsSpace(Trim(s)[0]) && !IsSpace(Trim(s)[|Trim(s)| - 1])
  {
    var t := TrimStart(s);
    SliceOfSuffix(s, |s| - |t|, |TrimEnd(t)|);
    TrailingSpace(s);
    TrimEnds(s);
  }

  /** How many characters `trimStart()` removes. */
  function LeadingSpace(s: string): nat
  {
    |s| - |TrimStart(s)|
  }

  lemma SliceOfSuffix<T>(s: seq<T>, i: nat, n: nat)
    requires i + n <= |s|
    ensures s[i..][..n] == s[i..i + n]
  {
  }

  /** What `trim()` drops at the end of `s` is whitespace. */
  lemma TrailingSpace(s: string)
    ensures forall j :: LeadingSpace(s) + |Trim(s)| <= j < |s| ==> IsSpace(s[j])
  {
    var t := TrimStart(s);
    ShiftedSuffix(s, |s| - |t|, |TrimEnd(t)|, IsSpace);
  }

  /** A property of every element of `s[i..]` from position `m` on holds of
      every element of `s` from position `i + m` on. */
  lemma ShiftedSuffix<T>(s: seq<T>, i: nat, m: nat, p: T -> bool)
    requires i <= |s|
    requires forall k :: m <= k < |s[i..]| ==> p(s[i..][k])
    ensures forall j :: i + m <= j < |s| ==> p(s[j])
  {
    forall j | i + m <= j < |s| ensures p(s[j]) {
      assert s[j] == s[i..][j - i];
    }
  }

  /** A non-empty trimmed string starts and ends with non-whitespace. */
  lemma TrimEnds(s: string)
    ensures |Trim(s)| > 0 ==> !IsSpace(Trim(s)[0]) && !IsSpace(Trim(s)[|Trim(s)| - 1])
  {
    var t := TrimStart(s);
    var r := TrimEnd(t);
    assert Trim(s) == r;
    if |r| > 0 {
      assert r == t[..|r|];
      assert r[0] == t[0] && !IsSpace(t[0]);
    }
  }

  /** A string with no whitespace at either end is its own trim. */
  lemma TrimNoOp(s: string)
    requires |s| > 0 ==> !IsSpace(s[0]) && !IsSpace(s[|s| - 1])
    ensures Trim(s) == s
  {
  }

  /** The longest whitespace-free prefix of `s`. */
  function TakeWord(s: string): (w: string)
    ensures |w| <= |s| && w == s[..|w|]
    ensures forall i :: 0 <= i < |w| ==> !IsSpace(w[i])
    ensures |w| < |s| ==> IsSpace(s[|w|])
  {
    if |s| == 0 || IsSpace(s[0]) then ""
    else [s[0]] + TakeWord(s[1..])
  }

  /** The maximal whitespace-free runs of `s`, left to right. */
  function Tokens(s: string): (r: seq<string>)
    ensures forall i :: 0 <= i < |r| ==> |r[i]| > 0 && forall j :: 0 <= j < |r[i]| ==> !IsSpace(r[i][j])
    decreases |s|
  {
    if |s| == 0 then []
    else if IsSpace(s[0]) then Tokens(s[1..])
    else
      var w := TakeWord(s);
      [w] + Tokens(s[|w|..])
  }

  /** `s.trim().split(/\s+/)`: the words of `s`; an all-blank `s` gives the
      single empty word, as JavaScript's split of an empty string does. */
  function Words(s: string): seq<string>
  {
    var t := Trim(s);
    if t == "" then [""] else Tokens(t)
  }

  /** Whitespace-free words joined by single spaces split back into the same words. */
  lemma {:induction false} TokensJoin(ws: seq<string>)
    requires forall i :: 0 <= i < |ws| ==> |ws[i]| > 0 && forall j :: 0 <= j < |ws[i]| ==> !IsSpace(ws[i][j])
    ensures Tokens(Join(ws, " ")) == ws
    decreases |ws|
  {
    if |ws| == 1 {
      TakeWordWhole(ws[0], "");
      assert ws[0] + "" == ws[0];
      assert ws[0][|ws[0]|..] == "";
    } else if |ws| > 1 {
      var tail := Join(ws[1..], " ");
      assert Join(ws, " ") == ws[0] + (" " + tail);
      WordThenSpace(ws[0], " " + tail);
      TokensSkipSpace(" ", tail);
      TokensJoin(ws[1..]);
      assert ws == [ws[0]] + ws[1..];
    }
  }

  lemma {:induction false} TakeWordWhole(w: string, rest: string)
    requires forall j :: 0 <= j < |w| ==> !IsSpace(w[j])
    requires rest == [] || IsSpace(rest[0])
    ensures TakeWord(w + rest) == w
    decreases |w|
  {
    if |w| > 0 {
      assert (w + rest)[1..] == w[1..] + rest;
      TakeWordWhole(w[1..], rest);
      assert w == [w[0]] + w[1..];
    } else {
      assert w + rest == rest;
    }
  }

  /** A word followed by whitespace is the first token. */
  lemma WordThenSpace(w: string, rest: string)
    requires |w| > 0 && forall j :: 0 <= j < |w| ==> !IsSpace(w[j])
    requires |rest| > 0 && IsSpace(rest[0])
    ensures Tokens(w + rest) == [w] + Tokens(rest)
  {
    TakeWordWhole(w, rest);
    assert (w + rest)[|w|..] == rest;
  }

  /** Leading whitespace is skipped. */
  lemma {:induction false} TokensSkipSpace(gap: string, x: string)
    requires forall j :: 0 <= j < |gap| ==> IsSpace(gap[j])
    ensures Tokens(gap + x) == Tokens(x)
    decreases |gap|
  {
    if |gap| > 0 {
      assert (gap + x)[1..] == gap[1..] + x;
      TokensSkipSpace(gap[1..], x);
    } else {
      assert gap + x == x;
    }
  }

  /** Two words with any run of whitespace between them are two tokens. */
  lemma TokensOfTwo(a: string, gap: string, b: string)
    requires |a| > 0 && forall j :: 0 <= j < |a| ==> !IsSpace(a[j])
    requires |b| > 0 && forall j :: 0 <= j < |b| ==> !IsSpace(b[j])
    requires |gap| > 0 && forall j :: 0 <= j < |gap| ==> IsSpace(gap[j])
    ensures Tokens(a + (gap + b)) == [a, b]
  {
    WordThenSpace(a, gap + b);
    TokensSkipSpace(gap, b);
    TokensOne(b);
  }

  /** A non-empty whitespace-free string is a single token. */
  lemma TokensOne(w: string)
    requires |w| > 0 && forall j :: 0 <= j < |w| ==> !IsSpace(w[j])
    ensures Tokens(w) == [w]
  {
    TokensJoin([w]);
    assert Join([w], " ") == w;
  }

  /** A join by single spaces of non-empty, whitespace-free words has no
      whitespace at either end. */
  lemma {:induction false} JoinEnds(ws: seq<string>)
    requires forall i :: 0 <= i < |ws| ==> |ws[i]| > 0 && forall j :: 0 <= j < |ws[i]| ==> !IsSpace(ws[i][j])
    ensures var s := Join(ws, " "); (|ws| == 0 <==> |s| == 0) && (|s| > 0 ==> !IsSpace(s[0]) && !IsSpace(s[|s| - 1]))
    decreases |ws|
  {
    if |ws| > 1 {
      JoinEnds(ws[1..]);
      var tail := Join(ws[1..], " ");
      assert Join(ws, " ") == ws[0] + " " + tail;
    }
  }

  // ---------------------------------------------------------------- numbers

  function DigitChar(d: nat): char
    requires d < 10
  {
    ('0' as int + d) as char
  }

  /** `String(n)` for a natural number: its decimal digits, no leading zero. */
  function NatToString(n: nat): (r: string)
    ensures |r| > 0 && forall i :: 0 <= i < |r| ==> '0' <= r[i] <= '9'
    ensures |r| > 1 ==> r[0] != '0'
  {
    if n < 10 then [DigitChar(n)]
    else NatToString(n / 10) + [DigitChar(n % 10)]
  }

  /** The number a string of decimal digits denotes. */
  function DecimalValue(s: string): nat
    requires forall i :: 0 <= i < |s| ==> '0' <= s[i] <= '9'
  {
    if |s| == 0 then 0
    else DecimalValue(s[..|s| - 1]) * 10 + (s[|s| - 1] as int - '0' as int)
  }

  /** Reading back the rendered digits gives the number. */
  lemma {:induction false} DecimalRoundTrip(n: nat)
    ensures DecimalValue(NatToString(n)) == n
  {
    if n >= 10 {
      var r := NatToString(n);
      assert r[..|r| - 1] == NatToString(n / 10);
      DecimalRoundTrip(n / 10);
    }
  }

  /** Distinct numbers render as distinct strings. */
  lemma NatToStringInjective(m: nat, n: nat)
    requires NatToString(m) == NatToString(n)
    ensures m == n
  {
    DecimalRoundTrip(m);
    DecimalRoundTrip(n);
  }
}

=== FILE: wrappers.dfy ===
/** Option and Result, the failure-carrying values used across the model:
    `Option` stands for JavaScript's `undefined`/`null`, `Result` for a
    validation or handler outcome that either succeeds or names its error. */
module Wrappers {

  datatype Option<+T> = None | Some(value: T) {

    /** The value, or `default` when absent (JavaScript's `x ?? default`). */
    function GetOr(default: T): T {
      match this
      case Some(v) => v
      case None => default
    }
  }

  datatype Result<+R, +E> = Success(value: R) | Failure(error: E)
}
